=== FILE: README.md ===
# A verified model of the pure helpers of js/util.js

`js/util.js` is a small collection of browser helpers on a global `Util` object. This project
models the helpers that are pure logic over values and strings, and proves properties of them in
Dafny:

- `formatParams` turns an object or array into a query string. It is built on the key
  enumeration `keys`, the iteration `each` and the standard `encodeURIComponent`.
- `getParam` reads one parameter from `location.search`, and `getCookie` reads one cookie from
  `document.cookie`. Here both are pure functions of the searched string.
- `unique` de-duplicates an array by the key `typeof item + JSON.stringify(item)`.
- `isPlainObject` and `isArray` are the type tests the others rely on.

The modules follow the program's structure:

| file | module | contents |
|---|---|---|
| results.dfy | `Results` | `Option`, and `Result` with the two JavaScript exceptions that arise (TypeError, ReferenceError) |
| values.dfy | `Values` | the JavaScript value datatype, property lookup, truthiness, `typeof`, ToString, `isPlainObject`, `isArray` |
| iteration.dfy | `Iteration` | `keys` and `each` |
| uri.dfy | `UriComponent` | `encodeURIComponent`, and `decodeURIComponent`, which undoes it |
| text.dfy | `Text` | `join` and split on a one-character separator |
| params.dfy | `Params` | `formatParams`, and the query-string reader it is proved against |
| lookup.dfy | `Lookup` | `getParam` and `getCookie`, each as written and as intended |
| query_lookup.dfy | `QueryLookup` | `getParam` applied to the output of `formatParams` |
| json.dfy | `Json` | `JSON.stringify`, and the JSON string-literal reader it is proved against |
| dedup.dfy | `Dedup` | `unique`, as intended and as written |

Each operation has a partner that its contract or a lemma relates it to:

- `encodeURIComponent` is paired with `decodeURIComponent`. Decoding is proved to undo
  encoding, with full UTF-8. The converse does not hold: `%2c` decodes, but re-encodes as `%2C`.
- The String conversion of values is paired with `join`: an array converts to its element
  texts joined by `,`, and the conversion throws exactly when it reaches an own `toString`.
- `formatParams` is paired with a query-string reader. Reading back its output gives the
  key/value texts in `each` order.
- `getParam` is paired with `formatParams`. Looking up a key made of unreserved characters in
  an encoded query finds the first entry with that key and a non-empty value. Other keys are
  not covered: `getParam("a b")` on `?a%20b=1` finds nothing, because the pattern holds the
  name unencoded.
- String quoting in `JSON.stringify` is paired with JSON string reading.
- The `unique` loop is paired with a reference definition `FirstOccurrences`, which keeps the
  elements that are the first of their key.

Numbers are integers. `isArray` compares the class tag `Object.prototype.toString` gives with
`[object Array]` (`Values.IsArray`).

## Model

| member | source | states |
|---|---|---|
| Values.Get | js/util.js:71 | An own property read `obj[k]` finds a value exactly when `k` is an own name, and the value is stored under `k` |
| Values.GetUnique | js/util.js:71 | In an object with distinct names, reading the i-th name gives the i-th value |
| Values.ToStr | js/util.js:83 | The String conversion `encodeURIComponent` applies throws exactly when it reaches an own `toString` property: one owned by an object, or by an array element at any depth. It throws only a TypeError. `undefined`, `null` and the booleans convert to `"undefined"`, `"null"`, `"true"` and `"false"`, so an `undefined` value is sent as that text rather than skipped. A string converts to itself, a number to its decimal numeral, and an object without an own `toString` to `"[object Object]"` |
| Values.ArrayToStrJoinsElements | js/util.js:83 | An array that converts at all converts to the texts of its elements joined by `,`, with `undefined` and `null` elements as empty texts |
| Values.IsPlainObjectAsWritten | js/util.js:8-21 | `isPlainObject` as written: throws exactly on `null`, and says true only of arrays and objects |
| Values.IsArray | js/util.js:27-29 | The class-tag test `[object Array]` holds exactly for arrays |
| Values.IsPlainObject | js/util.js:8-21 | The intended test is the code as written with arrays excluded. It is true exactly for objects without a truthy `nodeType`, and without a truthy own `construtor` property (spelled as in the code) that lacks an own `isPrototypeOf`. It throws on `null` and agrees with the code on every non-array |
| Values.ArraysPassPlainObjectTest | js/util.js:14-15 | Every array passes the test as written and fails the intended one |
| Iteration.Keys | js/util.js:35-46 | `keys` succeeds exactly on plain objects without an own `hasOwnProperty`, and otherwise throws a TypeError. It lists the own names in order, and every name it lists has a value. With distinct names it lists each name exactly once |
| Iteration.Each | js/util.js:54-74 | `each` visits array indices 0..length-1 in ascending order, each once with its element, and object entries in `keys` order with their property values. It succeeds exactly on arrays and on plain objects that have no own `hasOwnProperty` and no truthy own `forEach`. Every failure is a TypeError |
| Iteration.EachVisitsFieldsInOrder | js/util.js:68-72 | On an object with distinct names, `each` visits exactly the fields, in order, each with its own value |
| UriComponent.EncodeURIComponent | js/util.js:83 | The encoding consists of unreserved characters and `%`. It leaves an all-unreserved string unchanged and is empty exactly for the empty string |
| UriComponent.EncodeConcat | js/util.js:83 | The encoding works character by character: the encoding of a concatenation is the concatenation of the encodings |
| UriComponent.EncodeOne | js/util.js:83 | A single unreserved character is kept as it is, wherever it stands; any other character becomes one or more `%XY` escapes with upper-case hexadecimal digits |
| UriComponent.EncodedLacks | js/util.js:83 | Encoded text never contains `&`, `=`, `?`, `#` or any other reserved character |
| UriComponent.DecodeEncode | js/util.js:83 | `decodeURIComponent(encodeURIComponent(s)) === s` for every string |
| UriComponent.EncodeInjective | js/util.js:83 | Distinct strings encode distinctly |
| Text.SplitJoin | js/util.js:85 | Joining a non-empty list of `&`-free parts with `&` and splitting on `&` gives the parts back. The empty list joins to `""`, which splits into `[""]` |
| Params.EntryTexts | js/util.js:82-83 | The key and value texts of the visited entries, one pair per entry in order. Fails, with a TypeError, exactly when some value cannot be converted to a string |
| Params.FormatParams | js/util.js:80-86 | `formatParams` gives `""` for a value without entries. Otherwise it gives the `&`-joined `enc(key)=enc(value)` segments of the entries in iteration order. It succeeds exactly when `each` and every conversion succeed, and fails only with a TypeError |
| Params.QueryAlphabet | js/util.js:83-85 | A query string consists only of unreserved characters, `%`, `=` and `&` |
| Params.SegmentShape | js/util.js:83 | A segment has no `&` and exactly one `=`, which separates the encoded key from the encoded value |
| Params.QuerySegments | js/util.js:83-85 | Splitting a non-empty query on `&` gives one segment per entry, in order, and each segment splits on `=` into the encoded key and the encoded value |
| Params.FormatParamsSegments | js/util.js:80-86 | The output of `formatParams` on a value with entries splits into exactly one `key=value` segment per visited entry |
| Params.QueryRoundTrip | js/util.js:83-85 | Reading back the query string of any key/value list gives that list |
| Params.FormatParamsRoundTrip | js/util.js:80-86 | Reading back the output of `formatParams` gives the String conversions of the keys and values in `each` order |
| Lookup.ParamRun | js/util.js:156 | The greedy `[^#?&]*`: the longest prefix free of `#`, `?` and `&` |
| Lookup.LeftmostParam | js/util.js:156 | The first position at which `[?&]name=` is followed by a character other than `#?&`; no earlier position matches |
| Lookup.MatchParam | js/util.js:156 | No result exactly when the pattern matches nowhere. Otherwise the result is non-empty and free of `#?&`, sits right after the leftmost `name=`, and ends at the end of the string or at one of `#?&` |
| Lookup.GetParam | js/util.js:154-158 | `getParam` as written: a TypeError exactly when nothing matches, otherwise the matched value, which is never `""` |
| Lookup.GetParamThrowsWithoutMatch | js/util.js:156-157 | A search string without `?` or `&` makes `getParam` throw |
| Lookup.AbsentParamThrows | js/util.js:156-157 | Looking up the absent parameter `a` in `?b=1` throws as written and gives `""` as intended |
| Lookup.GetParamOrEmpty | js/util.js:157 | `getParam` as intended: `""` exactly when nothing matches, otherwise the value `getParam` returns |
| Lookup.CookieRun | js/util.js:93 | The greedy `[^;]*`: the longest prefix free of `;` |
| Lookup.LeftmostCookie | js/util.js:93 | The first position where `name=` occurs; none occurs earlier |
| Lookup.MatchCookie | js/util.js:93 | No result exactly when `name=` occurs nowhere. Otherwise the result is free of `;`, follows the leftmost `name=`, and ends at the end of the string or at a `;` |
| Lookup.GetCookie | js/util.js:92-95 | `getCookie` as written: a TypeError exactly when `name=` occurs nowhere, otherwise the matched (possibly empty) value |
| Lookup.GetCookieOrEmpty | js/util.js:94 | `getCookie` as intended: `""` when the cookie is absent, otherwise the value `getCookie` returns |
| Lookup.AbsentCookieThrows | js/util.js:93-94 | Looking up the absent cookie `a` in `b=1` throws as written and gives `""` as intended |
| Lookup.CookieMatchesInsideLongerName | js/util.js:93 | The pattern has no anchor: `id` found in `xid=5; id=7` gives `5` |
| QueryLookup.MatchParamInQuery | js/util.js:156 | Searching `?` or `&` followed by a query for an unreserved key finds the encoded value of the first entry with that key and a non-empty value, and nothing when there is none |
| QueryLookup.GetParamOnFormatParams | js/util.js:154-158 | `getParam` on `"?" + formatParams(data)`, for an unreserved key, returns the encoded value of the first such entry, and throws when there is none |
| Json.Stringify | js/util.js:181-183 | `JSON.stringify` is undefined exactly on `undefined`, and its first character tells strings, arrays and objects apart |
| Json.UnquoteQuote | js/util.js:182-183 | Every string literal `JSON.stringify` writes reads back as the string it quoted |
| Json.QuoteInjective | js/util.js:182-183 | Distinct strings are quoted distinctly |
| Json.NumberToStringInjective | js/util.js:182-183 | Distinct integers print distinctly |
| Dedup.DedupKey | js/util.js:182-183 | The key `typeof item + JSON.stringify(item)` begins with the `typeof` name and is longer than it; `undefined` is filed under `"undefinedundefined"` |
| Dedup.KeyDeterminesType | js/util.js:181-182 | Two values with the same key have the same `typeof` |
| Dedup.PrimitiveKeysExact | js/util.js:181-183 | Two primitive values share a key exactly when they are equal |
| Dedup.UndefinedInsideCollides | js/util.js:182-183 | `[undefined]` and `[null]` share a key, and so do `{a: undefined}` and `{}` |
| Dedup.Unique | js/util.js:174-188 | `unique` as intended. Its loop returns the reference result, the elements whose key no earlier element had, in input order, and the result has every key of the input |
| Dedup.FirstOccurrencesStep | js/util.js:180-185 | One loop step keeps the element exactly when its key is not yet recorded, and then records the key. This holds for any key function |
| Dedup.FirstOccurrencesSubsequence | js/util.js:178-187 | The result keeps input order: it is the input with some elements removed |
| Dedup.SubsequenceMembers | js/util.js:178-187 | A subsequence is no longer than the list it is taken from and holds only its elements. With the lemma above, the result of `unique` is no longer than the input and holds only input elements |
| Dedup.FirstOccurrencesKeySet | js/util.js:180-185 | Every key of the input is the key of some element of the result |
| Dedup.FirstOccurrencesKeysDistinct | js/util.js:180-185 | No two elements of the result share a key |
| Dedup.FirstOccurrencesKeepsFirsts | js/util.js:180-185 | Every element that is the first with its key is in the result |
| Dedup.FirstOccurrencesOfDistinct | js/util.js:174-188 | An array whose keys are already distinct is returned unchanged |
| Dedup.UniqueIdempotent | js/util.js:174-188 | De-duplicating twice equals de-duplicating once |
| Dedup.FirstOccurrencesOfExactKey | js/util.js:174-188 | When the key tells the elements apart, the result holds every element of the input and none twice |
| Dedup.UniqueOnPrimitives | js/util.js:174-188 | On primitive values `unique` keeps every value of the input and no value twice |
| Dedup.NumberAndNumeralBothKept | js/util.js:181 | `1` and `"1"` are both kept, as the comment promises |
| Dedup.ObjectsWithNumberAndNumeralKept | js/util.js:181 | `{value: 1}` and `{value: "1"}` are both kept, as the comment promises. A key built from `String(item)` would merge them |
| Dedup.UndefinedAndNullElementsMerge | js/util.js:181-183 | `[undefined]` and `[null]` count as duplicates; the first is kept |
| Dedup.UniqueAsWritten | js/util.js:182 | `unique` as written: when it returns at all, it returns the intended result |
| Dedup.UniqueAsWrittenThrows | js/util.js:182 | As written, `unique` returns exactly on inputs whose intended result is empty, that is on the empty array. On any other input it throws a ReferenceError |

## Left out

- The HTTP request dispatcher, its two transports, relay callbacks and the timeout race do not exist in `js/util.js`. Nothing of them is modelled.
- `throttle` (js/util.js:127-148) is left out. It depends on the clock, on timers and on closure state.
- `setCookie` and `removeCookie` (js/util.js:103-119) are left out. They write `document.cookie` and use date arithmetic.
- `isEmail` (js/util.js:164-166) is left out. It is a single regular expression test and would need a regular-expression engine.
- `location.search` and `document.cookie` are not read. They are parameters of `Lookup.GetParam` and `Lookup.GetCookie`.
- Lookup.GetParam: `name` is matched as literal text. Regular-expression metacharacters in a name are not interpreted.
- Lookup.GetCookie: `name` is matched as literal text. Regular-expression metacharacters in a name are not interpreted.
- Numbers are integers. Fractions, NaN, infinities and the exponent notation of numbers of magnitude 10^21 and above are not modelled. `NumberToString` is the plain decimal form, which is what JavaScript prints for integers of magnitude at most 2^53.
- Values.NumberToString: integers of magnitude above 2^53 are values of the model but most are not JavaScript numbers, and for those that are, JavaScript prints the shortest numeral that reads back as the same double (`String(2**60)` is `"1152921504606847000"`). Above 2^53 the numeral in a query string and the key `unique` files a number under can therefore differ from the model's.
- Functions, symbols, host objects (DOM nodes, `window`), prototypes other than `Object.prototype`, and getters are not values of the model.
- Sparse arrays are not values of the model: an array is a dense sequence. The native `forEach` that `each` uses on arrays (js/util.js:59-60) skips holes, so `formatParams([ , 1])` gives `"1=1"`; the model cannot express that input.
- Values.IsPlainObject: the comparison `obj.self === self` never holds, because `window` is not a value.
- Iteration.Keys: properties are enumerated in field order. JavaScript's rule that integer-like names come first, in ascending order, is not modelled.
- Iteration.Keys: on an array, `keys` as written (js/util.js:36-45) passes the `isPlainObject` test and lists the indices `"0"`, `"1"`, and so on. The model builds `keys` on the intended `Values.IsPlainObject`, so on an array it throws a TypeError instead. `formatParams` is unaffected, because `each` walks arrays with `forEach` and never calls `keys` on them.
- Iteration.Each: the iterator, its `context` argument and the native `forEach` fast path are not run. `each` returns the list of (key, value) arguments the iterator would be called with. For an array without holes, the native `forEach` visits the same entries.
- UriComponent.EncodeURIComponent: a character here is a Unicode scalar value. A lone surrogate, and the URIError it would cause, cannot arise.
- Json.Stringify: `toJSON` methods, replacer functions and cycles (which would throw) do not arise, because the model has no functions and no shared references.
- Json.Stringify: `JSON.stringify` escapes lone surrogates since ECMAScript 2019. Lone surrogates do not arise here.
- Error messages are not modelled; only the kind of exception is.

## Findings

| source | as written | input that shows it | evidently intended | confidence | as-written member | corrected member |
|---|---|---|---|---|---|---|
| js/util.js:182 | `unique` tests `obj[key]`, a variable declared nowhere | `unique([1])` throws a ReferenceError | test and set `temp[key]`, keeping the first element of each key | not executed | Dedup.UniqueAsWrittenThrows | Dedup.Unique |
| js/util.js:15 | `isPlainObject` tests the misspelled property `construtor`, so an array passes | `isPlainObject([])` returns true | arrays are excluded, as the comment on line 14 says; the intended test is the code as written with arrays excluded, because correcting the spelling alone would reject every object literal (its inherited `constructor`, `Object`, owns no `isPrototypeOf`) | not executed | Values.ArraysPassPlainObjectTest | Values.IsPlainObject |
| js/util.js:157 | `getParam` reads `matches.length` on the `null` that `match` returns without a match | `getParam("a")` on the search string `"?b=1"` throws a TypeError | return `""` when the parameter is absent | not executed | Lookup.AbsentParamThrows | Lookup.GetParamOrEmpty |
| js/util.js:94 | `getCookie` reads `matches.length` on the `null` that `match` returns without a match | `getCookie("a")` on the cookie string `"b=1"` throws a TypeError | return `""` when the cookie is absent | not executed | Lookup.AbsentCookieThrows | Lookup.GetCookieOrEmpty |

The rest of the model uses the corrected definitions:

- `keys` and `each` are built on `Values.IsPlainObject`. This changes only `keys` on arrays: as written it lists their indices, and here it throws a TypeError. `each` is unaffected, because it walks arrays with their native `forEach` in both versions.
- `Dedup.Unique` is the intended loop.
- `Lookup.GetParam` and `Lookup.GetCookie` keep the behaviour as written. Their `OrEmpty` versions are the intended ones.

=== FILE: dedup.dfy ===
/**
 * Array de-duplication `unique` (js/util.js). Every element is filed under the key
 * `typeof item + JSON.stringify(item)`; an element is kept when no earlier element had its key.
 * The record of keys seen is a plain object, modelled as a set of strings: every key starts
 * with a `typeof` name, so none collides with a property inherited from `Object.prototype`.
 *
 * The list reasoning is stated for any key function, and `unique` is its instance for
 * `DedupKey`. As written the loop reads the undeclared variable `obj` instead of `temp`, so
 * every call on a non-empty array throws a ReferenceError; `UniqueAsWritten` models that, and
 * `Unique` is the evidently intended loop.
 */
module Dedup {
  import opened Results
  import opened Values
  import opened Json

  /**
   * The key `unique` files an element under: its `typeof` name followed by its JSON text, where
   * `JSON.stringify(undefined)` concatenates as "undefined".
   */
  function DedupKey(v: Value): (r: string)
    ensures |r| > |TypeOf(v)| && r[..|TypeOf(v)|] == TypeOf(v)
    ensures v.Undefined? ==> r == "undefinedundefined"
  {
    TypeOf(v) + Stringify(v).GetOr("undefined")
  }

  /** Values other than arrays and objects. */
  predicate Primitive(v: Value) {
    !v.Arr? && !v.Obj?
  }

  // ---------------------------------------------------------------------------------------
  // First occurrences under a key function

  /** Is `xs[i]` the first element with its key? */
  predicate IsFirst<T>(xs: seq<T>, key: T -> string, i: nat)
    requires i < |xs|
  {
    forall j :: 0 <= j < i ==> key(xs[j]) != key(xs[i])
  }

  /** The keys of a list. */
  function KeySet<T>(xs: seq<T>, key: T -> string): set<string> {
    set i | 0 <= i < |xs| :: key(xs[i])
  }

  /** No two elements share a key. */
  predicate KeysDistinct<T>(xs: seq<T>, key: T -> string) {
    forall i, j :: 0 <= i < j < |xs| ==> key(xs[i]) != key(xs[j])
  }

  /** `a` is `b` with some elements removed, order kept. */
  predicate Subsequence<T(==)>(a: seq<T>, b: seq<T>)
    decreases |b|
  {
    if |a| == 0 then true
    else if |b| == 0 then false
    else
      || (a[|a| - 1] == b[|b| - 1] && Subsequence(a[..|a| - 1], b[..|b| - 1]))
      || Subsequence(a, b[..|b| - 1])
  }

  /** Reference definition: the elements that are the first of their key, in their order. */
  function FirstOccurrences<T>(xs: seq<T>, key: T -> string): seq<T>
    decreases |xs|
  {
    if |xs| == 0 then []
    else
      var n := |xs| - 1;
      FirstOccurrences(xs[..n], key) + (if IsFirst(xs, key, n) then [xs[n]] else [])
  }

  lemma KeySetSnoc<T>(xs: seq<T>, key: T -> string, v: T)
    ensures KeySet(xs + [v], key) == KeySet(xs, key) + {key(v)}
  {
    assert forall i :: 0 <= i < |xs| ==> (xs + [v])[i] == xs[i];
    assert (xs + [v])[|xs|] == v;
  }

  lemma KeySetAbsorb<T>(xs: seq<T>, key: T -> string, v: T)
    requires key(v) in KeySet(xs, key)
    ensures KeySet(xs + [v], key) == KeySet(xs, key)
  {
    KeySetSnoc(xs, key, v);
  }

  /** An element is first of its key exactly when its key is not among those before it. */
  lemma IsFirstIffUnseen<T>(xs: seq<T>, key: T -> string, i: nat)
    requires i < |xs|
    ensures IsFirst(xs, key, i) <==> key(xs[i]) !in KeySet(xs[..i], key)
  {
    assert forall j :: 0 <= j < i ==> xs[..i][j] == xs[j];
  }

  /** Being first of its key depends only on the elements up to it. */
  lemma IsFirstPrefix<T>(xs: seq<T>, key: T -> string, k: nat, i: nat)
    requires i < k <= |xs|
    ensures IsFirst(xs[..k], key, i) <==> IsFirst(xs, key, i)
  {
    assert forall j :: 0 <= j <= i ==> xs[..k][j] == xs[j];
  }

  /** One more element: it is kept exactly when its key is new, and its key becomes seen. */
  lemma FirstOccurrencesStep<T>(xs: seq<T>, key: T -> string, i: nat)
    requires i < |xs|
    ensures FirstOccurrences(xs[..i + 1], key) ==
      FirstOccurrences(xs[..i], key) + (if key(xs[i]) in KeySet(xs[..i], key) then [] else [xs[i]])
    ensures KeySet(xs[..i + 1], key) == KeySet(xs[..i], key) + {key(xs[i])}
  {
    var p := xs[..i];
    var q := xs[..i + 1];
    assert q[..i] == p && q[i] == xs[i];
    IsFirstPrefix(xs, key, i + 1, i);
    IsFirstIffUnseen(xs, key, i);
    assert q == p + [xs[i]];
    KeySetSnoc(p, key, xs[i]);
  }

  lemma {:induction false} FirstOccurrencesSubsequence<T>(xs: seq<T>, key: T -> string)
    ensures Subsequence(FirstOccurrences(xs, key), xs)
    decreases |xs|
  {
    if |xs| > 0 {
      var n := |xs| - 1;
      var p := xs[..n];
      var r := FirstOccurrences(xs, key);
      FirstOccurrencesSubsequence(p, key);
      if IsFirst(xs, key, n) {
        assert r[..|r| - 1] == FirstOccurrences(p, key);
      } else {
        assert r == FirstOccurrences(p, key);
        if |r| > 0 {
          assert Subsequence(r, p);
        }
      }
    }
  }

  lemma {:induction false} FirstOccurrencesKeySet<T>(xs: seq<T>, key: T -> string)
    ensures KeySet(FirstOccurrences(xs, key), key) == KeySet(xs, key)
    decreases |xs|
  {
    if |xs| > 0 {
      var n := |xs| - 1;
      var p := xs[..n];
      var r := FirstOccurrences(p, key);
      FirstOccurrencesKeySet(p, key);
      assert xs == p + [xs[n]];
      IsFirstIffUnseen(xs, key, n);
      if IsFirst(xs, key, n) {
        assert FirstOccurrences(xs, key) == r + [xs[n]];
        KeySetSnoc(r, key, xs[n]);
        KeySetSnoc(p, key, xs[n]);
      } else {
        assert FirstOccurrences(xs, key) == r;
        KeySetAbsorb(p, key, xs[n]);
      }
    }
  }

  lemma KeysDistinctSnoc<T>(xs: seq<T>, key: T -> string, v: T)
    requires KeysDistinct(xs, key)
    requires key(v) !in KeySet(xs, key)
    ensures KeysDistinct(xs + [v], key)
  {
    assert forall i :: 0 <= i < |xs| ==> (xs + [v])[i] == xs[i];
  }

  lemma {:induction false} FirstOccurrencesKeysDistinct<T>(xs: seq<T>, key: T -> string)
    ensures KeysDistinct(FirstOccurrences(xs, key), key)
    decreases |xs|
  {
    if |xs| > 0 {
      var n := |xs| - 1;
      var p := xs[..n];
      FirstOccurrencesKeysDistinct(p, key);
      if IsFirst(xs, key, n) {
        IsFirstIffUnseen(xs, key, n);
        FirstOccurrencesKeySet(p, key);
        KeysDistinctSnoc(FirstOccurrences(p, key), key, xs[n]);
      }
    }
  }

  lemma {:induction false} FirstOccurrencesKeepsFirsts<T>(xs: seq<T>, key: T -> string)
    ensures forall i :: 0 <= i < |xs| && IsFirst(xs, key, i) ==> xs[i] in FirstOccurrences(xs, key)
    decreases |xs|
  {
    if |xs| > 0 {
      var n := |xs| - 1;
      var p := xs[..n];
      var r := FirstOccurrences(p, key);
      assert FirstOccurrences(xs, key) == r + (if IsFirst(xs, key, n) then [xs[n]] else []);
      FirstOccurrencesKeepsFirsts(p, key);
      forall i | 0 <= i < n && IsFirst(xs, key, i)
        ensures xs[i] in r
      {
        IsFirstPrefix(xs, key, n, i);
        assert p[i] == xs[i];
      }
    }
  }

  /** A subsequence is no longer than the list it is taken from, and takes its elements from it. */
  lemma {:induction false} SubsequenceMembers<T>(a: seq<T>, b: seq<T>)
    requires Subsequence(a, b)
    ensures |a| <= |b|
    ensures forall v :: v in a ==> v in b
    decreases |b|
  {
    if |a| > 0 {
      var m := |b| - 1;
      if a[|a| - 1] == b[m] && Subsequence(a[..|a| - 1], b[..m]) {
        SubsequenceMembers(a[..|a| - 1], b[..m]);
        assert a == a[..|a| - 1] + [a[|a| - 1]];
      } else {
        SubsequenceMembers(a, b[..m]);
      }
      assert b == b[..m] + [b[m]];
    }
  }

  /**
   * The first occurrences form a subsequence of the input, no longer than it, with pairwise
   * distinct keys and every key of the input, and every first occurrence is among them.
   */
  lemma FirstOccurrencesSpec<T>(xs: seq<T>, key: T -> string)
    ensures Subsequence(FirstOccurrences(xs, key), xs) && |FirstOccurrences(xs, key)| <= |xs|
    ensures KeysDistinct(FirstOccurrences(xs, key), key)
    ensures KeySet(FirstOccurrences(xs, key), key) == KeySet(xs, key)
    ensures forall i :: 0 <= i < |xs| && IsFirst(xs, key, i) ==> xs[i] in FirstOccurrences(xs, key)
  {
    FirstOccurrencesSubsequence(xs, key);
    SubsequenceMembers(FirstOccurrences(xs, key), xs);
    FirstOccurrencesKeysDistinct(xs, key);
    FirstOccurrencesKeySet(xs, key);
    FirstOccurrencesKeepsFirsts(xs, key);
  }

  /** A list whose keys are already distinct is left as it is. */
  lemma {:induction false} FirstOccurrencesOfDistinct<T>(ys: seq<T>, key: T -> string)
    requires KeysDistinct(ys, key)
    ensures FirstOccurrences(ys, key) == ys
    decreases |ys|
  {
    if |ys| > 0 {
      var n := |ys| - 1;
      assert KeysDistinct(ys[..n], key);
      FirstOccurrencesOfDistinct(ys[..n], key);
      assert ys[..n] + [ys[n]] == ys;
    }
  }

  // ---------------------------------------------------------------------------------------
  // The keys of `unique`

  /** The key begins with the `typeof` name, and the five names begin with distinct letters. */
  lemma KeyDeterminesType(a: Value, b: Value)
    requires DedupKey(a) == DedupKey(b)
    ensures TypeOf(a) == TypeOf(b)
  {
    assert DedupKey(a)[0] == TypeOf(a)[0];
    assert DedupKey(b)[0] == TypeOf(b)[0];
  }

  /**
   * On primitive values the key is exact: two primitives share a key exactly when they are
   * equal. In particular the number 1 and the string "1" are kept apart.
   */
  lemma PrimitiveKeysExact(a: Value, b: Value)
    requires Primitive(a) && Primitive(b)
    ensures DedupKey(a) == DedupKey(b) <==> a == b
  {
    if DedupKey(a) == DedupKey(b) {
      KeyDeterminesType(a, b);
      var t := TypeOf(a);
      assert DedupKey(a)[|t|..] == Stringify(a).GetOr("undefined");
      assert DedupKey(b)[|t|..] == Stringify(b).GetOr("undefined");
      match a
      case Num(x) => NumberToStringInjective(x, b.n);
      case Str(x) => QuoteInjective(x, b.s);
      case _ =>
    }
  }

  /**
   * The key is not exact on arrays and objects: `JSON.stringify` writes an `undefined` element
   * as `null` and drops an `undefined` property, so such values share keys.
   */
  lemma UndefinedInsideCollides()
    ensures DedupKey(Arr([Undefined])) == DedupKey(Arr([Null]))
    ensures DedupKey(Obj([("a", Undefined)])) == DedupKey(Obj([]))
  {
    assert ElementTexts(Arr([Undefined]), 0) == ["null"];
    assert ElementTexts(Arr([Null]), 0) == ["null"];
    assert MemberTexts(Obj([("a", Undefined)]), 0) == [];
  }

  // ---------------------------------------------------------------------------------------
  // `unique`

  /**
   * `unique(array)` as intended: a fresh array of the elements whose key no earlier element
   * had, in their original order, covering every key of the input. The further properties of
   * that result are the lemmas about `FirstOccurrences` above.
   */
  method Unique(xs: seq<Value>) returns (uniqueArr: seq<Value>)
    ensures uniqueArr == FirstOccurrences(xs, DedupKey)
    ensures KeySet(uniqueArr, DedupKey) == KeySet(xs, DedupKey)
  {
    var temp: set<string> := {};
    uniqueArr := [];
    var i := 0;
    while i < |xs|
      invariant i <= |xs|
      invariant uniqueArr == FirstOccurrences(xs[..i], DedupKey)
      invariant temp == KeySet(xs[..i], DedupKey)
    {
      var item := xs[i];
      var key := DedupKey(item);
      FirstOccurrencesStep(xs, DedupKey, i);
      if key !in temp {
        temp := temp + {key};
        uniqueArr := uniqueArr + [item];
      }
      i := i + 1;
    }
    assert xs[..i] == xs;
    FirstOccurrencesKeySet(xs, DedupKey);
  }

  /** De-duplicating twice gives the same array as de-duplicating once. */
  lemma UniqueIdempotent(xs: seq<Value>)
    ensures FirstOccurrences(FirstOccurrences(xs, DedupKey), DedupKey) == FirstOccurrences(xs, DedupKey)
  {
    FirstOccurrencesKeysDistinct(xs, DedupKey);
    FirstOccurrencesOfDistinct(FirstOccurrences(xs, DedupKey), DedupKey);
  }

  /**
   * Where the key tells the elements of a list apart, the first occurrences are exactly the
   * distinct elements: every element appears, and none twice.
   */
  lemma FirstOccurrencesOfExactKey<T>(xs: seq<T>, key: T -> string)
    requires forall i, j :: 0 <= i < |xs| && 0 <= j < |xs| && key(xs[i]) == key(xs[j]) ==> xs[i] == xs[j]
    ensures forall v :: v in FirstOccurrences(xs, key) <==> v in xs
    ensures forall i, j :: 0 <= i < j < |FirstOccurrences(xs, key)| ==>
      FirstOccurrences(xs, key)[i] != FirstOccurrences(xs, key)[j]
  {
    var r := FirstOccurrences(xs, key);
    FirstOccurrencesSpec(xs, key);
    SubsequenceMembers(r, xs);
    forall v | v in xs
      ensures v in r
    {
      var i :| 0 <= i < |xs| && xs[i] == v;
      assert key(v) in KeySet(xs, key);
      var j :| 0 <= j < |r| && key(r[j]) == key(v);
      assert r[j] in xs;
    }
  }

  /**
   * On an array of primitive values `unique` removes exactly the repeated values: the result
   * holds every value of the input, and no value twice.
   */
  lemma UniqueOnPrimitives(xs: seq<Value>)
    requires forall i :: 0 <= i < |xs| ==> Primitive(xs[i])
    ensures forall v :: v in FirstOccurrences(xs, DedupKey) <==> v in xs
    ensures forall i, j :: 0 <= i < j < |FirstOccurrences(xs, DedupKey)| ==>
      FirstOccurrences(xs, DedupKey)[i] != FirstOccurrences(xs, DedupKey)[j]
  {
    forall i, j | 0 <= i < |xs| && 0 <= j < |xs| && DedupKey(xs[i]) == DedupKey(xs[j])
      ensures xs[i] == xs[j]
    {
      PrimitiveKeysExact(xs[i], xs[j]);
    }
    FirstOccurrencesOfExactKey(xs, DedupKey);
  }

  /** The example of the source's comment: 1 and "1" both stay. */
  lemma NumberAndNumeralBothKept()
    ensures FirstOccurrences([Num(1), Str("1")], DedupKey) == [Num(1), Str("1")]
  {
    PrimitiveKeysExact(Num(1), Str("1"));
    FirstOccurrencesOfDistinct([Num(1), Str("1")], DedupKey);
  }

  /**
   * The other example of the source's comment: `{value: 1}` and `{value: "1"}` both stay, where
   * a key built from `String(item)` would merge every object as "[object Object]".
   */
  lemma ObjectsWithNumberAndNumeralKept()
    ensures FirstOccurrences([Obj([("value", Num(1))]), Obj([("value", Str("1"))])], DedupKey) ==
      [Obj([("value", Num(1))]), Obj([("value", Str("1"))])]
  {
    var a := Obj([("value", Num(1))]);
    var b := Obj([("value", Str("1"))]);
    assert MemberTexts(a, 0) == [Quote("value") + ":" + "1"];
    assert MemberTexts(b, 0) == [Quote("value") + ":" + Quote("1")];
    assert |DedupKey(a)| != |DedupKey(b)|;
    FirstOccurrencesOfDistinct([a, b], DedupKey);
  }

  /** An array holding `undefined` and one holding `null` count as duplicates. */
  lemma UndefinedAndNullElementsMerge()
    ensures FirstOccurrences([Arr([Undefined]), Arr([Null])], DedupKey) == [Arr([Undefined])]
  {
    UndefinedInsideCollides();
    var xs := [Arr([Undefined]), Arr([Null])];
    assert DedupKey(xs[0]) == DedupKey(xs[1]);
    assert !IsFirst(xs, DedupKey, 1);
    assert xs[..1] == [Arr([Undefined])];
  }

  /** `unique` as written: the empty array for an empty input, a ReferenceError for any other. */
  function UniqueAsWritten(xs: seq<Value>): (r: Result<seq<Value>>)
    ensures r.Ok? ==> r.value == FirstOccurrences(xs, DedupKey)
  {
    if |xs| == 0 then Ok([]) else Throw(ReferenceError)
  }

  /** As written, `unique` fails on every array the intended version has something to return for. */
  lemma UniqueAsWrittenThrows(xs: seq<Value>)
    ensures UniqueAsWritten(xs).Ok? <==> FirstOccurrences(xs, DedupKey) == []
    ensures UniqueAsWritten(xs).Throw? ==> UniqueAsWritten(xs).error == ReferenceError
  {
    if |xs| > 0 {
      assert IsFirst(xs, DedupKey, 0);
      FirstOccurrencesKeepsFirsts(xs, DedupKey);
    }
  }
}

=== FILE: iteration.dfy ===
/**
 * Key enumeration `keys` and iteration `each` (js/util.js). `each` calls its iterator once per
 * entry; the model returns the sequence of (key, value) arguments of those calls, in call order.
 */
module Iteration {
  import opened Results
  import opened Values

  /** The key `each` hands its iterator: an array index or an object property name. */
  datatype PropKey = Index(i: nat) | Name(name: string)

  /** The key as text, the way `encodeURIComponent` converts it with ToString. */
  function KeyText(k: PropKey): string {
    match k
    case Index(i) => NumberToString(i)
    case Name(n) => n
  }

  /**
   * `keys(obj)`: the own property names of a plain object, in enumeration order. Anything else
   * is a TypeError, and so is an object with an own `hasOwnProperty` property, because the loop
   * then calls that non-callable property.
   */
  function Keys(v: Value): (r: Result<seq<string>>)
    ensures r.Ok? <==> IsPlainObject(v) == Ok(true) && "hasOwnProperty" !in Names(v.fields)
    ensures r.Throw? ==> r.error == TypeError
    ensures r.Ok? ==> |r.value| == |v.fields|
    ensures r.Ok? ==> forall i :: 0 <= i < |r.value| ==> r.value[i] == v.fields[i].0
    ensures r.Ok? ==> forall k :: k in r.value <==> Get(v.fields, k).Some?
    ensures r.Ok? && UniqueKeys(v.fields) ==>
      forall i, j :: 0 <= i < j < |r.value| ==> r.value[i] != r.value[j]
  {
    var plain :- IsPlainObject(v);
    if !plain then Throw(TypeError)
    else if "hasOwnProperty" in Names(v.fields) then Throw(TypeError)
    else Ok(Names(v.fields))
  }

  /**
   * `each(obj, iterator)`: the (key, value) pairs the iterator is called with. An array is
   * walked by its native `forEach`, index by index. A plain object is walked in `keys` order;
   * a truthy own `forEach` property is called instead and, not being callable, throws.
   * Any other value is a TypeError.
   */
  function Each(v: Value): (r: Result<seq<(PropKey, Value)>>)
    ensures r.Throw? ==> r.error == TypeError
    ensures r.Ok? <==> v.Arr? || (Keys(v).Ok? && !Truthy(Prop(v.fields, "forEach")))
    ensures v.Arr? ==> |r.value| == |v.elems|
    ensures v.Arr? ==> forall i :: 0 <= i < |v.elems| ==> r.value[i] == (Index(i), v.elems[i])
    ensures r.Ok? && v.Obj? ==> |r.value| == |Keys(v).value|
    ensures r.Ok? && v.Obj? ==> forall i :: 0 <= i < |r.value| ==>
      r.value[i] == (Name(Keys(v).value[i]), Prop(v.fields, Keys(v).value[i]))
  {
    var plain :- IsPlainObject(v);
    if !plain && !IsArray(v) then Throw(TypeError)
    else if v.Arr? then Ok(seq(|v.elems|, i requires 0 <= i < |v.elems| => (Index(i), v.elems[i])))
    else if Truthy(Prop(v.fields, "forEach")) then Throw(TypeError)
    else
      var ks :- Keys(v);
      Ok(seq(|ks|, i requires 0 <= i < |ks| => (Name(ks[i]), Prop(v.fields, ks[i]))))
  }

  /** On an object, `each` visits exactly its fields, in order, each with its own value. */
  lemma EachVisitsFieldsInOrder(fields: seq<(string, Value)>)
    requires UniqueKeys(fields)
    requires Each(Obj(fields)).Ok?
    ensures |Each(Obj(fields)).value| == |fields|
    ensures forall i :: 0 <= i < |fields| ==>
      Each(Obj(fields)).value[i] == (Name(fields[i].0), fields[i].1)
  {
    forall i | 0 <= i < |fields|
      ensures Prop(fields, fields[i].0) == fields[i].1
    {
      GetUnique(fields, i);
    }
  }
}

=== FILE: json.dfy ===
/**
 * `JSON.stringify` (section 15.12.3 of ECMA-262 5.1) on the values of this model, the
 * serialisation `unique` builds its keys from. Its partner is `UnquoteString`, the reading of a
 * JSON string literal (section 15.12.1.1), which is proved to undo the quoting of strings;
 * and numbers are proved to print distinctly.
 */
module Json {
  import opened Results
  import opened Values
  import opened Text
  import UriComponent

  /** The lower-case hexadecimal digit `JSON.stringify` writes in a `\u` escape. */
  function HexLower(d: nat): char
    requires d < 16
  {
    if d < 10 then UriComponent.HexDigit(d) else ('a' as int + d - 10) as char
  }

  /**
   * One character inside a string literal: `"` and `\` and the control characters get the
   * short escapes `\"`, `\\`, `\b`, `\f`, `\n`, `\r`, `\t`; the remaining characters below
   * U+0020 become `\u00xx`; every other character is written as itself.
   */
  function EscapeChar(c: char): string {
    var n := c as int;
    if c == '"' then ['\\', '"']
    else if c == '\\' then ['\\', '\\']
    else if n == 8 then ['\\', 'b']
    else if n == 12 then ['\\', 'f']
    else if n == 10 then ['\\', 'n']
    else if n == 13 then ['\\', 'r']
    else if n == 9 then ['\\', 't']
    else if n < 0x20 then ['\\', 'u', '0', '0', HexLower(n / 16), HexLower(n % 16)]
    else [c]
  }

  function Escape(s: string): string {
    if |s| == 0 then "" else EscapeChar(s[0]) + Escape(s[1..])
  }

  /** The Quote operation: a string as a JSON string literal. */
  function Quote(s: string): (r: string)
    ensures |r| >= 2 && r[0] == '"' && r[|r| - 1] == '"'
  {
    "\"" + Escape(s) + "\""
  }

  /**
   * `JSON.stringify(v)`; None stands for its `undefined` result, which it gives for
   * `undefined` alone. Inside an array an `undefined` element is written `null`; inside an
   * object a property whose value is `undefined` is left out. The first character of the text
   * tells strings, arrays and objects apart.
   */
  function Stringify(v: Value): (r: Option<string>)
    ensures r.None? <==> v.Undefined?
    ensures r.Some? ==> |r.value| > 0
    ensures r.Some? ==> (r.value[0] == '"' <==> v.Str?)
    ensures r.Some? ==> (r.value[0] == '[' <==> v.Arr?)
    ensures r.Some? ==> (r.value[0] == '{' <==> v.Obj?)
    decreases v, 1, 0
  {
    match v
    case Undefined => None
    case Null => Some("null")
    case Bool(b) => Some(if b then "true" else "false")
    case Num(n) => Some(NumberToString(n))
    case Str(s) => Some(Quote(s))
    case Arr(_) => Some("[" + Join(ElementTexts(v, 0), ',') + "]")
    case Obj(_) => Some("{" + Join(MemberTexts(v, 0), ',') + "}")
  }

  /** The texts of the elements from index `i` on, `undefined` written as `null`. */
  function ElementTexts(v: Value, i: nat): (r: seq<string>)
    requires v.Arr? && i <= |v.elems|
    ensures |r| == |v.elems| - i
    decreases v, 0, |v.elems| - i
  {
    if i == |v.elems| then []
    else
      assert v.elems[i] in v.elems;
      [Stringify(v.elems[i]).GetOr("null")] + ElementTexts(v, i + 1)
  }

  /** The `"name":value` texts of the fields from index `i` on, skipping `undefined` values. */
  function MemberTexts(v: Value, i: nat): (r: seq<string>)
    requires v.Obj? && i <= |v.fields|
    ensures |r| <= |v.fields| - i
    decreases v, 0, |v.fields| - i
  {
    if i == |v.fields| then []
    else
      var f := v.fields[i];
      assert f in v.fields;
      var rest := MemberTexts(v, i + 1);
      match Stringify(f.1)
      case None => rest
      case Some(t) => [Quote(f.0) + ":" + t] + rest
  }

  // ---------------------------------------------------------------------------------------
  // Reading a string literal back

  function Prepend(c: char, r: Option<string>): Option<string> {
    match r
    case None => None
    case Some(s) => Some([c] + s)
  }

  /** The character a two-character escape `\x` stands for. */
  function ShortEscape(x: char): Option<char> {
    if x == '"' then Some('"')
    else if x == '\\' then Some('\\')
    else if x == '/' then Some('/')
    else if x == 'b' then Some(8 as char)
    else if x == 'f' then Some(12 as char)
    else if x == 'n' then Some(10 as char)
    else if x == 'r' then Some(13 as char)
    else if x == 't' then Some(9 as char)
    else None
  }

  /** The value of four hexadecimal digits of either case. */
  function Hex4(t: string): (r: Option<nat>)
    requires |t| == 4
    ensures r.Some? ==> r.value < 0x10000
  {
    match (UriComponent.HexValue(t[0]), UriComponent.HexValue(t[1]),
           UriComponent.HexValue(t[2]), UriComponent.HexValue(t[3]))
    case (Some(a), Some(b), Some(c), Some(d)) => Some(((a * 16 + b) * 16 + c) * 16 + d)
    case _ => None
  }

  /**
   * The characters the body of a JSON string literal spells, or None when it is not a valid
   * body: a raw `"` or control character, an unknown escape, or a `\u` escape of half a
   * surrogate pair (which a single character here cannot hold).
   */
  function Unescape(t: string): Option<string>
    decreases |t|
  {
    if |t| == 0 then Some("")
    else if t[0] == '"' || t[0] as int < 0x20 then None
    else if t[0] != '\\' then Prepend(t[0], Unescape(t[1..]))
    else if |t| < 2 then None
    else if t[1] == 'u' then
      if |t| < 6 then None
      else
        match Hex4(t[2..6])
        case None => None
        case Some(n) => if 0xD800 <= n < 0xE000 then None else Prepend(n as char, Unescape(t[6..]))
    else
      match ShortEscape(t[1])
      case None => None
      case Some(c) => Prepend(c, Unescape(t[2..]))
  }

  /** The string a JSON string literal denotes. */
  function UnquoteString(t: string): Option<string> {
    if |t| >= 2 && t[0] == '"' && t[|t| - 1] == '"' then Unescape(t[1..|t| - 1]) else None
  }

  lemma HexLowerRoundTrip(d: nat)
    requires d < 16
    ensures UriComponent.HexValue(HexLower(d)) == Some(d)
  {
  }

  /** Reading an escaped character followed by anything reads the character, then the rest. */
  lemma UnescapeEscapedChar(c: char, rest: string)
    ensures Unescape(EscapeChar(c) + rest) == Prepend(c, Unescape(rest))
  {
    var t := EscapeChar(c) + rest;
    var n := c as int;
    if c == '"' || c == '\\' || n == 8 || n == 12 || n == 10 || n == 13 || n == 9 {
      assert t[2..] == rest;
    } else if n < 0x20 {
      HexLowerRoundTrip(n / 16);
      HexLowerRoundTrip(n % 16);
      assert t[2..6] == ['0', '0', HexLower(n / 16), HexLower(n % 16)];
      assert Hex4(t[2..6]) == Some(n);
      assert t[6..] == rest;
    } else {
      assert t[1..] == rest;
    }
  }

  lemma {:induction false} UnescapeEscape(s: string)
    ensures Unescape(Escape(s)) == Some(s)
  {
    if |s| > 0 {
      UnescapeEscape(s[1..]);
      UnescapeEscapedChar(s[0], Escape(s[1..]));
      assert [s[0]] + s[1..] == s;
    }
  }

  /** Every string literal `JSON.stringify` writes reads back as the string it quoted. */
  lemma UnquoteQuote(s: string)
    ensures UnquoteString(Quote(s)) == Some(s)
  {
    var q := Quote(s);
    assert q[1..|q| - 1] == Escape(s);
    UnescapeEscape(s);
  }

  /** Distinct strings are quoted distinctly. */
  lemma QuoteInjective(a: string, b: string)
    requires Quote(a) == Quote(b)
    ensures a == b
  {
    UnquoteQuote(a);
    UnquoteQuote(b);
  }

  /** Decimal numerals of distinct numbers differ. */
  lemma {:induction false} NatToStringInjective(a: nat, b: nat)
    requires NatToString(a) == NatToString(b)
    ensures a == b
  {
    assert |NatToString(a)| >= 2 <==> a >= 10;
    assert |NatToString(b)| >= 2 <==> b >= 10;
    if a >= 10 && b >= 10 {
      var sa := NatToString(a);
      assert sa[..|sa| - 1] == NatToString(a / 10);
      assert sa[..|sa| - 1] == NatToString(b / 10);
      NatToStringInjective(a / 10, b / 10);
      assert UriComponent.HexDigit(a % 10) == sa[|sa| - 1] == UriComponent.HexDigit(b % 10);
    }
  }

  /** Distinct integers are printed distinctly. */
  lemma NumberToStringInjective(a: int, b: int)
    requires NumberToString(a) == NumberToString(b)
    ensures a == b
  {
    assert NumberToString(a)[0] == '-' <==> a < 0;
    assert NumberToString(b)[0] == '-' <==> b < 0;
    if a < 0 && b < 0 {
      assert NatToString(-a) == NumberToString(a)[1..];
      NatToStringInjective(-a, -b);
    } else if a >= 0 && b >= 0 {
      NatToStringInjective(a, b);
    }
  }
}

=== FILE: lookup.dfy ===
/**
 * The two regular-expression lookups of js/util.js, as pure functions of the string they
 * search: `getParam` reads `location.search` and `getCookie` reads `document.cookie`; both
 * strings are parameters here. `name` is matched as literal text.
 *
 * Both helpers evaluate `matches.length` on the result of `match`, which is `null` when
 * nothing matches, so they throw a TypeError instead of reaching their `""` fallback.
 * `GetParam` and `GetCookie` model that; `GetParamOrEmpty` and `GetCookieOrEmpty` are the
 * evidently intended versions that return `""`.
 */
module Lookup {
  import opened Results

  // ---------------------------------------------------------------------------------------
  // getParam: pattern "[?&]" + name + "=([^#?&]+)"

  /** The characters that end a parameter value: `#`, `?` and `&`. */
  predicate ParamStop(c: char) {
    c == '#' || c == '?' || c == '&'
  }

  /** The greedy `[^#?&]*` at the start of `t`: the longest prefix free of stop characters. */
  function ParamRun(t: string): (r: string)
    ensures |r| <= |t| && r == t[..|r|]
    ensures forall i :: 0 <= i < |r| ==> !ParamStop(r[i])
    ensures |r| == |t| || ParamStop(t[|r|])
  {
    if |t| == 0 || ParamStop(t[0]) then "" else [t[0]] + ParamRun(t[1..])
  }

  /** Does `[?&]name=([^#?&]+)` match at the start of `t`? */
  predicate ParamMatchesAt(t: string, name: string) {
    && |t| >= |name| + 3
    && (t[0] == '?' || t[0] == '&')
    && t[1..|name| + 1] == name
    && t[|name| + 1] == '='
    && !ParamStop(t[|name| + 2])
  }

  /** The leftmost position at or after `from` where the pattern matches. */
  function LeftmostParam(s: string, name: string, from: nat): (r: Option<nat>)
    requires from <= |s|
    ensures r.Some? ==> from <= r.value < |s| && ParamMatchesAt(s[r.value..], name)
    ensures forall j :: from <= j < |s| && (r.None? || j < r.value) ==> !ParamMatchesAt(s[j..], name)
    decreases |s| - from
  {
    if from == |s| then None
    else if ParamMatchesAt(s[from..], name) then Some(from)
    else LeftmostParam(s, name, from + 1)
  }

  /** Group 1 of the leftmost match in `search`, or None where `match` returns null. */
  function MatchParam(search: string, name: string): (r: Option<string>)
    ensures r.None? <==> forall i :: 0 <= i < |search| ==> !ParamMatchesAt(search[i..], name)
    ensures r.Some? ==> |r.value| > 0 && forall i :: 0 <= i < |r.value| ==> !ParamStop(r.value[i])
    ensures r.Some? ==>
      var i := LeftmostParam(search, name, 0).value;
      && i + |name| + 2 + |r.value| <= |search|
      && r.value == search[i + |name| + 2 .. i + |name| + 2 + |r.value|]
      && (i + |name| + 2 + |r.value| == |search| || ParamStop(search[i + |name| + 2 + |r.value|]))
  {
    match LeftmostParam(search, name, 0)
    case None => None
    case Some(i) =>
      var t := search[i..];
      assert t[|name| + 2..] == search[i + |name| + 2..];
      Some(ParamRun(t[|name| + 2..]))
  }

  /**
   * `getParam(name)` on the query string `search`, as written: the value after the leftmost
   * `?name=` or `&name=` that is followed by at least one character other than `#`, `?`, `&`;
   * a TypeError when there is none. It never returns the empty string.
   */
  function GetParam(search: string, name: string): (r: Result<string>)
    ensures r.Throw? <==> MatchParam(search, name).None?
    ensures r.Throw? ==> r.error == TypeError
    ensures r.Ok? ==> Some(r.value) == MatchParam(search, name) && r.value != ""
  {
    match MatchParam(search, name)
    case None => Throw(TypeError)
    case Some(v) => Ok(v)
  }

  /** A query string without any `?name=` or `&name=` makes `getParam` throw. */
  lemma GetParamThrowsWithoutMatch(search: string, name: string)
    requires forall i :: 0 <= i < |search| ==> search[i] != '?' && search[i] != '&'
    ensures GetParam(search, name) == Throw(TypeError)
  {
  }

  /** Looking up an absent parameter throws as written, and gives `""` as intended. */
  lemma AbsentParamThrows()
    ensures GetParam("?b=1", "a") == Throw(TypeError)
    ensures GetParamOrEmpty("?b=1", "a") == ""
  {
    var s := "?b=1";
    assert s[0..][1..2] == "b";
    assert s[1..][0] == 'b';
    assert !ParamMatchesAt(s[0..], "a") && !ParamMatchesAt(s[1..], "a");
    assert !ParamMatchesAt(s[2..], "a") && !ParamMatchesAt(s[3..], "a");
  }

  /** `getParam` as intended: the value, or `""` exactly when nothing matches. */
  function GetParamOrEmpty(search: string, name: string): (r: string)
    ensures r == "" <==> forall i :: 0 <= i < |search| ==> !ParamMatchesAt(search[i..], name)
    ensures r != "" ==> GetParam(search, name) == Ok(r)
  {
    MatchParam(search, name).GetOr("")
  }

  // ---------------------------------------------------------------------------------------
  // getCookie: pattern name + "=([^;]*)", unanchored

  /** The greedy `[^;]*` at the start of `t`. */
  function CookieRun(t: string): (r: string)
    ensures |r| <= |t| && r == t[..|r|]
    ensures ';' !in r
    ensures |r| == |t| || t[|r|] == ';'
  {
    if |t| == 0 || t[0] == ';' then "" else [t[0]] + CookieRun(t[1..])
  }

  /** Does `name=([^;]*)` match at the start of `t`? */
  predicate CookieMatchesAt(t: string, name: string) {
    |t| >= |name| + 1 && t[..|name|] == name && t[|name|] == '='
  }

  /** The leftmost position at or after `from` where `name=` occurs. */
  function LeftmostCookie(s: string, name: string, from: nat): (r: Option<nat>)
    requires from <= |s|
    ensures r.Some? ==> from <= r.value < |s| && CookieMatchesAt(s[r.value..], name)
    ensures forall j :: from <= j < |s| && (r.None? || j < r.value) ==> !CookieMatchesAt(s[j..], name)
    decreases |s| - from
  {
    if from == |s| then None
    else if CookieMatchesAt(s[from..], name) then Some(from)
    else LeftmostCookie(s, name, from + 1)
  }

  /** Group 1 of the leftmost match in `cookie`, or None where `match` returns null. */
  function MatchCookie(cookie: string, name: string): (r: Option<string>)
    ensures r.None? <==> forall i :: 0 <= i < |cookie| ==> !CookieMatchesAt(cookie[i..], name)
    ensures r.Some? ==> ';' !in r.value
    ensures r.Some? ==>
      var i := LeftmostCookie(cookie, name, 0).value;
      && i + |name| + 1 + |r.value| <= |cookie|
      && r.value == cookie[i + |name| + 1 .. i + |name| + 1 + |r.value|]
      && (i + |name| + 1 + |r.value| == |cookie| || cookie[i + |name| + 1 + |r.value|] == ';')
  {
    match LeftmostCookie(cookie, name, 0)
    case None => None
    case Some(i) =>
      var t := cookie[i..];
      assert t[|name| + 1..] == cookie[i + |name| + 1..];
      Some(CookieRun(t[|name| + 1..]))
  }

  /**
   * `getCookie(name)` on the cookie string, as written: the text after the leftmost `name=`
   * up to the next `;`, possibly empty; a TypeError when `name=` occurs nowhere.
   */
  function GetCookie(cookie: string, name: string): (r: Result<string>)
    ensures r.Throw? <==> MatchCookie(cookie, name).None?
    ensures r.Throw? ==> r.error == TypeError
    ensures r.Ok? ==> Some(r.value) == MatchCookie(cookie, name)
  {
    match MatchCookie(cookie, name)
    case None => Throw(TypeError)
    case Some(v) => Ok(v)
  }

  /** `getCookie` as intended: `""` when the cookie is absent. */
  function GetCookieOrEmpty(cookie: string, name: string): (r: string)
    ensures (forall i :: 0 <= i < |cookie| ==> !CookieMatchesAt(cookie[i..], name)) ==> r == ""
    ensures GetCookie(cookie, name).Ok? ==> r == GetCookie(cookie, name).value
  {
    MatchCookie(cookie, name).GetOr("")
  }

  /** Looking up an absent cookie throws as written, and gives `""` as intended. */
  lemma AbsentCookieThrows()
    ensures GetCookie("b=1", "a") == Throw(TypeError)
    ensures GetCookieOrEmpty("b=1", "a") == ""
  {
    var s := "b=1";
    assert s[0..][..1] == "b";
    assert s[1..][..1] == "=";
    assert !CookieMatchesAt(s[0..], "a") && !CookieMatchesAt(s[1..], "a");
    assert !CookieMatchesAt(s[2..], "a");
  }

  /**
   * The pattern has no anchor, so a name also matches the tail of a longer cookie name:
   * looking up `id` in `xid=5; id=7` yields the value of `xid`.
   */
  lemma CookieMatchesInsideLongerName()
    ensures GetCookie("xid=5; id=7", "id") == Ok("5")
  {
    var s := "xid=5; id=7";
    assert !CookieMatchesAt(s[0..], "id");
    assert CookieMatchesAt(s[1..], "id");
    assert s[1..][3..] == "5; id=7";
    assert CookieRun("5; id=7") == "5";
  }
}

=== FILE: params.dfy ===
/**
 * The query-string encoder `formatParams` (js/util.js): every entry `each` visits becomes
 * `encodeURIComponent(key) + "=" + encodeURIComponent(value)`, and the pairs are joined
 * with `&`. Its partner is `ParseQuery`, the usual reading of a query string (split on `&`,
 * split each segment at its `=`, decode both halves), which is proved to undo the encoding.
 */
module Params {
  import opened Results
  import opened Values
  import opened Iteration
  import opened UriComponent
  import opened Text

  /** The texts of the entries: ToString of each key and each value, in visiting order. */
  function EntryTexts(entries: seq<(PropKey, Value)>): (r: Result<seq<(string, string)>>)
    ensures r.Ok? <==> forall i :: 0 <= i < |entries| ==> ToStr(entries[i].1).Ok?
    ensures r.Throw? ==> r.error == TypeError
    ensures r.Ok? ==> |r.value| == |entries|
    ensures r.Ok? ==> forall i :: 0 <= i < |entries| ==>
      r.value[i] == (KeyText(entries[i].0), ToStr(entries[i].1).value)
  {
    if |entries| == 0 then Ok([])
    else
      var value :- ToStr(entries[0].1);
      var rest :- EntryTexts(entries[1..]);
      assert forall i :: 1 <= i < |entries| ==> entries[i] == entries[1..][i - 1];
      Ok([(KeyText(entries[0].0), value)] + rest)
  }

  /** One `key=value` segment. */
  function EncodePair(p: (string, string)): string {
    EncodeURIComponent(p.0) + "=" + EncodeURIComponent(p.1)
  }

  /** The segments of a query, one per entry. */
  function EncodedPairs(texts: seq<(string, string)>): seq<string> {
    seq(|texts|, i requires 0 <= i < |texts| => EncodePair(texts[i]))
  }

  /** The query string for a list of key/value texts. */
  function Query(texts: seq<(string, string)>): string {
    Join(EncodedPairs(texts), '&')
  }

  /**
   * `formatParams(data)`: the empty string for an object or array without entries, otherwise
   * one `key=value` segment per entry `each` visits, joined by `&`. It throws the TypeError of
   * `each` on anything but an array or plain object, and that of ToString on a value that
   * cannot be converted.
   */
  function FormatParams(data: Value): (r: Result<string>)
    ensures r.Throw? ==> r.error == TypeError
    ensures r.Ok? <==> Each(data).Ok? && EntryTexts(Each(data).value).Ok?
    ensures Each(data) == Ok([]) ==> r == Ok("")
    ensures r.Ok? ==> r.value == Query(EntryTexts(Each(data).value).value)
  {
    var entries :- Each(data);
    var texts :- EntryTexts(entries);
    Ok(Query(texts))
  }

  /** A query string consists of unreserved characters, `%` escapes, and the delimiters `=` and `&`. */
  lemma {:induction false} QueryAlphabet(texts: seq<(string, string)>)
    ensures forall i :: 0 <= i < |Query(texts)| ==>
      Unreserved(Query(texts)[i]) || Query(texts)[i] in "%=&"
  {
    var segs := EncodedPairs(texts);
    if |texts| == 1 {
      PairAlphabet(texts[0]);
      assert Query(texts) == segs[0];
    } else if |texts| > 1 {
      PairAlphabet(texts[0]);
      QueryAlphabet(texts[1..]);
      assert segs[1..] == EncodedPairs(texts[1..]);
      assert Query(texts) == segs[0] + ['&'] + Query(texts[1..]);
    }
  }

  /** A segment consists of unreserved characters, `%` escapes and `=`. */
  lemma PairAlphabet(p: (string, string))
    ensures forall i :: 0 <= i < |EncodePair(p)| ==>
      Unreserved(EncodePair(p)[i]) || EncodePair(p)[i] in "%="
  {
  }

  /** A segment holds exactly one `=`, between the encoded key and the encoded value. */
  lemma SegmentShape(p: (string, string))
    ensures '&' !in EncodePair(p)
    ensures Split(EncodePair(p), '=') == [EncodeURIComponent(p.0), EncodeURIComponent(p.1)]
  {
    EncodedLacks(p.0, '&');
    EncodedLacks(p.1, '&');
    EncodedLacks(p.0, '=');
    EncodedLacks(p.1, '=');
    SplitPair(EncodeURIComponent(p.0), EncodeURIComponent(p.1), '&');
  }

  /** `k=v` with neither part holding `=` or `d` splits on `=` into its parts, and holds no `d`. */
  lemma SplitPair(k: string, v: string, d: char)
    requires '=' !in k && '=' !in v && d !in k && d !in v && d != '='
    ensures d !in k + "=" + v
    ensures Split(k + "=" + v, '=') == [k, v]
  {
    assert Join([k, v], '=') == k + "=" + v;
    SplitJoin([k, v], '=');
  }

  /**
   * Splitting the output of a non-empty query on `&` gives one segment per entry, in order,
   * each `encodeURIComponent(key) + "=" + encodeURIComponent(value)`.
   */
  lemma QuerySegments(texts: seq<(string, string)>)
    requires |texts| > 0
    ensures Split(Query(texts), '&') == EncodedPairs(texts)
    ensures forall i :: 0 <= i < |texts| ==>
      Split(Split(Query(texts), '&')[i], '=') ==
        [EncodeURIComponent(texts[i].0), EncodeURIComponent(texts[i].1)]
  {
    forall i | 0 <= i < |texts|
      ensures '&' !in EncodedPairs(texts)[i]
    {
      SegmentShape(texts[i]);
    }
    SplitJoin(EncodedPairs(texts), '&');
    forall i | 0 <= i < |texts|
      ensures Split(EncodedPairs(texts)[i], '=') ==
        [EncodeURIComponent(texts[i].0), EncodeURIComponent(texts[i].1)]
    {
      SegmentShape(texts[i]);
    }
  }

  /** `formatParams` of a value with entries splits on `&` into exactly one `key=value` segment per entry. */
  lemma FormatParamsSegments(data: Value)
    requires FormatParams(data).Ok?
    requires |Each(data).value| > 0
    ensures |Split(FormatParams(data).value, '&')| == |Each(data).value|
    ensures forall i :: 0 <= i < |Each(data).value| ==>
      Split(Split(FormatParams(data).value, '&')[i], '=') ==
        [ EncodeURIComponent(KeyText(Each(data).value[i].0)),
          EncodeURIComponent(ToStr(Each(data).value[i].1).value) ]
  {
    QuerySegments(EntryTexts(Each(data).value).value);
  }

  // ---------------------------------------------------------------------------------------
  // Reading a query string back

  /** A segment `k=v`, split at its first `=` with both halves decoded. */
  function ParsePair(seg: string): Option<(string, string)> {
    var i := IndexOf(seg, '=');
    if i == |seg| then None
    else
      match (DecodeURIComponent(seg[..i]), DecodeURIComponent(seg[i + 1..]))
      case (Some(k), Some(v)) => Some((k, v))
      case _ => None
  }

  function ParsePairs(segs: seq<string>): Option<seq<(string, string)>> {
    if |segs| == 0 then Some([])
    else
      match ParsePair(segs[0])
      case None => None
      case Some(p) =>
        match ParsePairs(segs[1..])
        case None => None
        case Some(rest) => Some([p] + rest)
  }

  /** The key/value texts a query string spells; the empty string has none. */
  function ParseQuery(s: string): Option<seq<(string, string)>> {
    if s == "" then Some([]) else ParsePairs(Split(s, '&'))
  }

  /** A segment whose key part has no `=` splits right after the key part. */
  lemma ParsePairSplit(k: string, v: string)
    requires '=' !in k
    ensures ParsePair(k + "=" + v) ==
      match (DecodeURIComponent(k), DecodeURIComponent(v))
      case (Some(a), Some(b)) => Some((a, b))
      case _ => None
  {
    var seg := k + "=" + v;
    IndexOfAfterPrefix(k, '=', v);
    assert seg[..|k|] == k;
    assert seg[|k| + 1..] == v;
  }

  lemma ParseEncodedPair(p: (string, string))
    ensures ParsePair(EncodePair(p)) == Some(p)
  {
    EncodedLacks(p.0, '=');
    ParsePairSplit(EncodeURIComponent(p.0), EncodeURIComponent(p.1));
    DecodeEncode(p.0);
    DecodeEncode(p.1);
  }

  lemma ParsePairsStep(segs: seq<string>, p: (string, string), rest: seq<(string, string)>)
    requires |segs| > 0 && ParsePair(segs[0]) == Some(p) && ParsePairs(segs[1..]) == Some(rest)
    ensures ParsePairs(segs) == Some([p] + rest)
  {
  }

  lemma {:induction false} ParseEncodedPairs(texts: seq<(string, string)>)
    ensures ParsePairs(EncodedPairs(texts)) == Some(texts)
  {
    if |texts| > 0 {
      var segs := EncodedPairs(texts);
      assert segs[0] == EncodePair(texts[0]);
      assert segs[1..] == EncodedPairs(texts[1..]);
      ParseEncodedPair(texts[0]);
      ParseEncodedPairs(texts[1..]);
      ParsePairsStep(segs, texts[0], texts[1..]);
      assert [texts[0]] + texts[1..] == texts;
    }
  }

  /** Reading back the query string of any list of key/value texts gives that list. */
  lemma QueryRoundTrip(texts: seq<(string, string)>)
    ensures ParseQuery(Query(texts)) == Some(texts)
  {
    if |texts| > 0 {
      QuerySegments(texts);
      assert EncodedPairs(texts)[0] == EncodePair(texts[0]);
      SegmentShape(texts[0]);
      assert Query(texts) != "" by {
        if |texts| == 1 {
          assert Query(texts) == EncodePair(texts[0]);
        } else {
          assert Query(texts) == EncodePair(texts[0]) + ['&'] + Join(EncodedPairs(texts)[1..], '&');
        }
      }
      ParseEncodedPairs(texts);
    }
  }

  /**
   * Reading back the output of `formatParams` gives the String conversions of the keys and
   * values, in the order `each` visits them.
   */
  lemma FormatParamsRoundTrip(data: Value)
    requires FormatParams(data).Ok?
    ensures ParseQuery(FormatParams(data).value) == Some(EntryTexts(Each(data).value).value)
  {
    QueryRoundTrip(EntryTexts(Each(data).value).value);
  }
}

=== FILE: query_lookup.dfy ===
/**
 * `getParam` applied to a query string built by `formatParams`. Encoded keys and values never
 * contain `?`, `&` or `=`, so the leftmost `?k=` or `&k=` the pattern finds is the start of a
 * segment whose key is `k`, and the value it captures is that segment's whole encoded value.
 */
module QueryLookup {
  import opened Results
  import opened Values
  import opened Iteration
  import opened UriComponent
  import opened Params
  import opened Text
  import opened Lookup

  /** The value text of the first entry whose key text is `k` and whose value text is not empty. */
  function FirstValueFor(texts: seq<(string, string)>, k: string): Option<string> {
    if |texts| == 0 then None
    else if texts[0].0 == k && texts[0].1 != "" then Some(texts[0].1)
    else FirstValueFor(texts[1..], k)
  }

  /** A match position with none before it is the leftmost one. */
  lemma LeftmostParamIs(s: string, k: string, q: nat)
    requires q < |s| && ParamMatchesAt(s[q..], k)
    requires forall j :: 0 <= j < q ==> !ParamMatchesAt(s[j..], k)
    ensures LeftmostParam(s, k, 0) == Some(q)
  {
  }

  /** A prefix in which the pattern cannot start leaves the match to the rest of the string. */
  lemma MatchParamSkip(x: string, y: string, k: string)
    requires forall j :: 0 <= j < |x| ==> !ParamMatchesAt((x + y)[j..], k)
    ensures MatchParam(x + y, k) == MatchParam(y, k)
  {
    var s := x + y;
    forall j | |x| <= j < |s|
      ensures s[j..] == y[j - |x|..]
    {
    }
    match LeftmostParam(y, k, 0)
    case None =>
      assert forall j :: 0 <= j < |s| ==> !ParamMatchesAt(s[j..], k);
    case Some(p) =>
      var q := |x| + p;
      assert s[q..] == y[p..];
      LeftmostParamIs(s, k, q);
  }

  /** The greedy run stops exactly at the end of a stop-free text followed by a stop or the end. */
  lemma {:induction false} ParamRunStopsAt(u: string, w: string)
    requires forall i :: 0 <= i < |u| ==> !ParamStop(u[i])
    requires w == "" || ParamStop(w[0])
    ensures ParamRun(u + w) == u
  {
    if |u| > 0 {
      assert (u + w)[1..] == u[1..] + w;
      ParamRunStopsAt(u[1..], w);
      assert [u[0]] + u[1..] == u;
    }
  }

  /** Two texts that start `e=` and `k=`, with no `=` in `e` or `k`, agree on the key and the remainder. */
  lemma SameKey(e: string, w: string, k: string, u: string)
    requires '=' !in e && '=' !in k
    requires e + ['='] + w == k + ['='] + u
    ensures e == k && w == u
  {
    var t := e + ['='] + w;
    IndexOfAfterPrefix(e, '=', w);
    IndexOfAfterPrefix(k, '=', u);
    assert t[..|e|] == e && t[..|k|] == k;
    assert t[|e| + 1..] == w && t[|k| + 1..] == u;
  }

  /** A match right at the separator of a segment `e=v` means the segment's key is `k` and its value is not empty. */
  lemma MatchAtSegmentMeansKey(c: char, e: string, v: string, rest: string, k: string)
    requires '=' !in e && '=' !in k
    requires rest == "" || rest[0] == '&'
    requires ParamMatchesAt([c] + e + ['='] + v + rest, k)
    ensures e == k && v != ""
  {
    var s := [c] + e + ['='] + v + rest;
    var t := s[1..];
    var u := t[|k| + 1..];
    assert t == e + ['='] + (v + rest);
    assert t[..|k|] == s[1..|k| + 1];
    assert t == k + ['='] + u;
    SameKey(e, v + rest, k, u);
    assert u == s[|k| + 2..];
  }

  /** At the separator of a segment `k=v` with a non-empty, stop-free `v`, the pattern matches and captures `v`. */
  lemma MatchAtSegmentOfKey(c: char, k: string, v: string, rest: string)
    requires c == '?' || c == '&'
    requires v != "" && forall i :: 0 <= i < |v| ==> !ParamStop(v[i])
    requires rest == "" || rest[0] == '&'
    ensures ParamMatchesAt([c] + k + ['='] + v + rest, k)
    ensures ParamRun(([c] + k + ['='] + v + rest)[|k| + 2..]) == v
  {
    var s := [c] + k + ['='] + v + rest;
    assert s[1..|k| + 1] == k;
    assert s[|k| + 2..] == v + rest;
    ParamRunStopsAt(v, rest);
  }

  /** What follows the first segment of a query: nothing, or `&` and the query of the remaining entries. */
  function QueryTail(texts: seq<(string, string)>): string
    requires |texts| > 0
  {
    if |texts| == 1 then "" else ['&'] + Query(texts[1..])
  }

  lemma QueryCons(texts: seq<(string, string)>)
    requires |texts| > 0
    ensures Query(texts) == EncodePair(texts[0]) + QueryTail(texts)
  {
    assert EncodedPairs(texts)[0] == EncodePair(texts[0]);
    assert EncodedPairs(texts)[1..] == EncodedPairs(texts[1..]);
  }

  /** The search string is the separator and the first segment, followed by the rest of the query. */
  lemma SearchCons(c: char, texts: seq<(string, string)>)
    requires |texts| > 0
    ensures [c] + Query(texts) == ([c] + EncodePair(texts[0])) + QueryTail(texts)
  {
    QueryCons(texts);
  }

  lemma Regroup(c: char, p: string, e: string, v: string, rest: string)
    requires p == e + ['='] + v
    ensures [c] + p + rest == [c] + e + ['='] + v + rest
  {
  }

  /** The search string laid out as separator, encoded key, `=`, encoded value, and the rest of the query. */
  lemma SearchLayout(c: char, texts: seq<(string, string)>)
    requires |texts| > 0
    ensures [c] + Query(texts) ==
      [c] + EncodeURIComponent(texts[0].0) + ['='] + EncodeURIComponent(texts[0].1) + QueryTail(texts)
  {
    SearchCons(c, texts);
    Regroup(c, EncodePair(texts[0]), EncodeURIComponent(texts[0].0), EncodeURIComponent(texts[0].1), QueryTail(texts));
  }

  /** A match at the very start of the search string, with none before it, is what `match` returns. */
  lemma MatchAtFront(c: char, k: string, v: string, rest: string, s: string)
    requires c == '?' || c == '&'
    requires v != "" && forall i :: 0 <= i < |v| ==> !ParamStop(v[i])
    requires rest == "" || rest[0] == '&'
    requires s == [c] + k + ['='] + v + rest
    ensures MatchParam(s, k) == Some(v)
  {
    MatchAtSegmentOfKey(c, k, v, rest);
    assert s[0..] == s;
    LeftmostParamIs(s, k, 0);
  }

  /** When the first entry has key `k` and a non-empty value, the search stops at the first segment. */
  lemma HeadHit(c: char, texts: seq<(string, string)>, k: string)
    requires c == '?' || c == '&'
    requires forall i :: 0 <= i < |k| ==> Unreserved(k[i])
    requires |texts| > 0 && texts[0].0 == k && texts[0].1 != ""
    ensures MatchParam([c] + Query(texts), k) == Some(EncodeURIComponent(texts[0].1))
  {
    var v := EncodeURIComponent(texts[0].1);
    SearchLayout(c, texts);
    UnreservedEncodesToItself(k);
    EncodedHasNoStop(texts[0].1);
    MatchAtFront(c, k, v, QueryTail(texts), [c] + Query(texts));
  }

  lemma UnreservedEncodesToItself(k: string)
    requires forall i :: 0 <= i < |k| ==> Unreserved(k[i])
    ensures EncodeURIComponent(k) == k
  {
  }

  /** An encoded value is a run of characters other than `#`, `?` and `&`, as long as the value is non-empty. */
  lemma EncodedHasNoStop(s: string)
    ensures |EncodeURIComponent(s)| > 0 <==> |s| > 0
    ensures forall i :: 0 <= i < |EncodeURIComponent(s)| ==> !ParamStop(EncodeURIComponent(s)[i])
  {
    var r := EncodeURIComponent(s);
    forall i | 0 <= i < |r|
      ensures !ParamStop(r[i])
    {
      UnreservedIsNoStop(r[i]);
    }
  }

  lemma UnreservedIsNoStop(c: char)
    requires Unreserved(c) || c == '%'
    ensures !ParamStop(c)
  {
  }

  /** The pattern does not match at the separator of a segment whose key is not `k` or whose value is empty. */
  lemma NoMatchAtHead(c: char, texts: seq<(string, string)>, k: string)
    requires forall i :: 0 <= i < |k| ==> Unreserved(k[i])
    requires |texts| > 0 && !(texts[0].0 == k && texts[0].1 != "")
    ensures !ParamMatchesAt([c] + Query(texts), k)
  {
    var e := EncodeURIComponent(texts[0].0);
    var v := EncodeURIComponent(texts[0].1);
    SearchLayout(c, texts);
    EncodedLacks(texts[0].0, '=');
    UnreservedEncodesToItself(k);
    assert '=' !in k;
    if ParamMatchesAt([c] + Query(texts), k) {
      MatchAtSegmentMeansKey(c, e, v, QueryTail(texts), k);
      EncodeInjective(texts[0].0, k);
    }
  }

  /** A segment holds neither `?` nor `&`. */
  lemma SegmentLacksSeparators(p: (string, string))
    ensures forall i :: 0 <= i < |EncodePair(p)| ==> EncodePair(p)[i] != '?' && EncodePair(p)[i] != '&'
  {
    PairAlphabet(p);
  }

  /** The pattern cannot start inside a segment, which holds neither `?` nor `&`. */
  lemma NoMatchInsideSegment(c: char, p: string, rest: string, k: string)
    requires forall i :: 0 <= i < |p| ==> p[i] != '?' && p[i] != '&'
    ensures forall j :: 1 <= j < |[c] + p| ==> !ParamMatchesAt(([c] + p + rest)[j..], k)
  {
    var s := [c] + p + rest;
    forall j | 1 <= j < |[c] + p|
      ensures !ParamMatchesAt(s[j..], k)
    {
      assert s[j..][0] == p[j - 1];
    }
  }

  /** Otherwise the search passes over the first segment and continues in the rest of the query. */
  lemma HeadMiss(c: char, texts: seq<(string, string)>, k: string)
    requires forall i :: 0 <= i < |k| ==> Unreserved(k[i])
    requires |texts| > 0 && !(texts[0].0 == k && texts[0].1 != "")
    ensures MatchParam([c] + Query(texts), k) == MatchParam(QueryTail(texts), k)
  {
    var p := EncodePair(texts[0]);
    SearchCons(c, texts);
    NoMatchAtHead(c, texts, k);
    SegmentLacksSeparators(texts[0]);
    NoMatchInsideSegment(c, p, QueryTail(texts), k);
    assert ([c] + Query(texts))[0..] == [c] + Query(texts);
    MatchParamSkip([c] + p, QueryTail(texts), k);
  }

  /**
   * Searching a separator followed by the query for `texts` finds the encoded value of the
   * first entry with key `k` and a non-empty value, and nothing when there is none.
   */
  lemma {:induction false} MatchParamInQuery(c: char, texts: seq<(string, string)>, k: string)
    requires c == '?' || c == '&'
    requires forall i :: 0 <= i < |k| ==> Unreserved(k[i])
    ensures MatchParam([c] + Query(texts), k) ==
      match FirstValueFor(texts, k)
      case None => None
      case Some(v) => Some(EncodeURIComponent(v))
  {
    if |texts| == 0 {
      assert [c] + Query(texts) == [c];
    } else if texts[0].0 == k && texts[0].1 != "" {
      HeadHit(c, texts, k);
    } else {
      HeadMiss(c, texts, k);
      if |texts| > 1 {
        MatchParamInQuery('&', texts[1..], k);
      }
    }
  }

  /**
   * `getParam(k)` on `"?" + formatParams(data)`, for a key made of unreserved characters,
   * returns the encoded value of the first entry whose key is `k` and whose value is not
   * empty, and throws when there is no such entry.
   */
  lemma GetParamOnFormatParams(data: Value, k: string)
    requires FormatParams(data).Ok?
    requires forall i :: 0 <= i < |k| ==> Unreserved(k[i])
    ensures GetParam("?" + FormatParams(data).value, k) ==
      match FirstValueFor(EntryTexts(Each(data).value).value, k)
      case None => Throw(TypeError)
      case Some(v) => Ok(EncodeURIComponent(v))
  {
    MatchParamInQuery('?', EntryTexts(Each(data).value).value, k);
  }
}

=== FILE: results.dfy ===
/** Completion records for the helpers: a normal result or a thrown JavaScript exception. */
module Results {

  /** The exceptions the helpers can raise. */
  datatype JsError = TypeError | ReferenceError

  /** A value that may be absent, as a failed regular-expression match (`null`) or a missing property. */
  datatype Option<+T> = None | Some(value: T) {

    /** Falls back to `default` where nothing was found, like the helpers' `""` fallbacks. */
    function GetOr(default: T): T {
      if Some? then value else default
    }
  }

  /** Normal completion with a value, or an abrupt completion with a thrown exception. */
  datatype Result<+T> = Ok(value: T) | Throw(error: JsError) {

    predicate IsFailure() {
      Throw?
    }

    function PropagateFailure<U>(): Result<U>
      requires Throw?
    {
      Throw(error)
    }

    function Extract(): T
      requires Ok?
    {
      value
    }
  }
}

=== FILE: text.dfy ===
/** Joining and splitting strings on a one-character separator. */
module Text {

  /** `Array.prototype.join` with a one-character separator. */
  function Join(parts: seq<string>, sep: char): string {
    if |parts| == 0 then ""
    else if |parts| == 1 then parts[0]
    else parts[0] + [sep] + Join(parts[1..], sep)
  }

  /** Position of the first `c` in `s`, or `|s|` when there is none. */
  function IndexOf(s: string, c: char): (i: nat)
    ensures i <= |s|
    ensures i < |s| ==> s[i] == c
    ensures forall j :: 0 <= j < i ==> s[j] != c
  {
    if |s| == 0 then 0
    else if s[0] == c then 0
    else 1 + IndexOf(s[1..], c)
  }

  /** `String.prototype.split` with a one-character separator: the pieces between the separators. */
  function Split(s: string, sep: char): (parts: seq<string>)
    ensures |parts| >= 1
    decreases |s|
  {
    var i := IndexOf(s, sep);
    if i == |s| then [s] else [s[..i]] + Split(s[i + 1..], sep)
  }

  /** The first separator after a separator-free prefix is the one right after it. */
  lemma IndexOfAfterPrefix(a: string, c: char, b: string)
    requires c !in a
    ensures IndexOf(a + [c] + b, c) == |a|
  {
    var s := a + [c] + b;
    assert s[|a|] == c;
    assert forall j :: 0 <= j < |a| ==> s[j] == a[j] && a[j] != c;
  }

  /** Splitting undoes joining, as long as no piece contains the separator. */
  lemma {:induction false} SplitJoin(parts: seq<string>, sep: char)
    requires |parts| > 0
    requires forall i :: 0 <= i < |parts| ==> sep !in parts[i]
    ensures Split(Join(parts, sep), sep) == parts
  {
    if |parts| == 1 {
      assert IndexOf(parts[0], sep) == |parts[0]|;
    } else {
      var s := Join(parts, sep);
      var tail := Join(parts[1..], sep);
      assert s == parts[0] + [sep] + tail;
      IndexOfAfterPrefix(parts[0], sep, tail);
      assert s[..|parts[0]|] == parts[0];
      assert s[|parts[0]| + 1..] == tail;
      SplitJoin(parts[1..], sep);
      assert [parts[0]] + parts[1..] == parts;
    }
  }
}

=== FILE: uri.dfy ===
/**
 * The percent-encoding that `formatParams` applies to every key and value:
 * `encodeURIComponent` (section 15.1.3.4 of ECMA-262 5.1, percent-encoding as in section 2.1
 * of RFC 3986), together with `decodeURIComponent` (section 15.1.3.2), which serves as the
 * partner the encoder is proved against: decoding undoes encoding. The converse does not hold,
 * since a lower-case escape such as `%2c` decodes but is re-encoded as `%2C`.
 *
 * A Dafny `char` is a Unicode scalar value, so a string here is always a well-formed
 * UTF-16 string in JavaScript terms and the encoder's URIError for lone surrogates cannot arise.
 */
module UriComponent {
  import opened Results

  type Byte = x: int | 0 <= x < 256

  /** The characters `encodeURIComponent` leaves unescaped: ASCII letters, digits and - _ . ! ~ * ' ( ) */
  predicate Unreserved(c: char) {
    || ('A' <= c <= 'Z')
    || ('a' <= c <= 'z')
    || ('0' <= c <= '9')
    || c in "-_.!~*'()"
  }

  /** The upper-case hexadecimal digit the encoder writes for `d`. */
  function HexDigit(d: nat): char
    requires d < 16
  {
    if d < 10 then ('0' as int + d) as char else ('A' as int + d - 10) as char
  }

  /** The value of a hexadecimal digit of either case, as the decoder reads it. */
  function HexValue(c: char): (r: Option<nat>)
    ensures r.Some? ==> r.value < 16
  {
    if '0' <= c <= '9' then Some(c as int - '0' as int)
    else if 'A' <= c <= 'F' then Some(c as int - 'A' as int + 10)
    else if 'a' <= c <= 'f' then Some(c as int - 'a' as int + 10)
    else None
  }

  /** One octet written as `%XY`. */
  function Percent(b: Byte): string {
    ['%', HexDigit(b / 16), HexDigit(b % 16)]
  }

  /** A run of octets, each written as `%XY`. */
  function PercentAll(bs: seq<Byte>): (r: string)
    ensures |r| == 3 * |bs|
    ensures forall i :: 0 <= i < |r| ==> r[i] == '%' || Unreserved(r[i])
  {
    if |bs| == 0 then "" else Percent(bs[0]) + PercentAll(bs[1..])
  }

  /**
   * The UTF-8 octets of a code point (Table 21 of ECMA-262 5.1, RFC 3629): the six-bit groups
   * are taken off the low end by repeated division by 64.
   */
  function Utf8(c: char): seq<Byte> {
    var cp := c as int;
    if cp < 0x80 then [cp]
    else if cp < 0x800 then [0xC0 + cp / 64, 0x80 + cp % 64]
    else if cp < 0x10000 then [0xE0 + (cp / 64) / 64, 0x80 + (cp / 64) % 64, 0x80 + cp % 64]
    else
      [ 0xF0 + ((cp / 64) / 64) / 64, 0x80 + ((cp / 64) / 64) % 64,
        0x80 + (cp / 64) % 64, 0x80 + cp % 64 ]
  }

  /** One character as `encodeURIComponent` writes it. */
  function EncodeChar(c: char): string {
    if Unreserved(c) then [c] else PercentAll(Utf8(c))
  }

  lemma EncodeCharAlphabet(c: char)
    ensures |EncodeChar(c)| > 0
    ensures forall i :: 0 <= i < |EncodeChar(c)| ==> Unreserved(EncodeChar(c)[i]) || EncodeChar(c)[i] == '%'
  {
  }

  /**
   * `encodeURIComponent(s)`: every unreserved character stays, every other character becomes
   * the `%XY` escapes of its UTF-8 octets. The output therefore never contains `&`, `=`, `?`
   * or `#`, and a string of unreserved characters is its own encoding.
   */
  function EncodeURIComponent(s: string): (r: string)
    ensures forall i :: 0 <= i < |r| ==> Unreserved(r[i]) || r[i] == '%'
    ensures (forall i :: 0 <= i < |s| ==> Unreserved(s[i])) ==> r == s
    ensures |r| == 0 <==> |s| == 0
  {
    if |s| == 0 then ""
    else
      var head := EncodeChar(s[0]);
      EncodeCharAlphabet(s[0]);
      head + EncodeURIComponent(s[1..])
  }

  /** The encoding works character by character: encoding a concatenation concatenates the encodings. */
  lemma {:induction false} EncodeConcat(a: string, b: string)
    ensures EncodeURIComponent(a + b) == EncodeURIComponent(a) + EncodeURIComponent(b)
    decreases |a|
  {
    if |a| == 0 {
      assert a + b == b;
    } else {
      var ab := a + b;
      assert ab[0] == a[0] && ab[1..] == a[1..] + b;
      EncodeConcat(a[1..], b);
      EncodeStep(ab);
      EncodeStep(a);
      var h, x, y := EncodeChar(a[0]), EncodeURIComponent(a[1..]), EncodeURIComponent(b);
      assert EncodeURIComponent(ab) == h + (x + y);
      ConcatAssoc(h, x, y);
    }
  }

  lemma ConcatAssoc(h: string, x: string, y: string)
    ensures h + (x + y) == (h + x) + y
  {
  }

  lemma EncodeStep(s: string)
    requires |s| > 0
    ensures EncodeURIComponent(s) == EncodeChar(s[0]) + EncodeURIComponent(s[1..])
  {
  }

  /**
   * A single character: an unreserved one is kept as it is; any other becomes one or more
   * `%XY` escapes with upper-case hexadecimal digits.
   */
  lemma EncodeOne(c: char)
    ensures Unreserved(c) ==> EncodeURIComponent([c]) == [c]
    ensures !Unreserved(c) ==>
      var r := EncodeURIComponent([c]);
      && |r| >= 3 && |r| % 3 == 0
      && forall i :: 0 <= i < |r| ==>
        (i % 3 == 0 ==> r[i] == '%') && (i % 3 != 0 ==> r[i] in "0123456789ABCDEF")
  {
    assert [c][1..] == "";
    if !Unreserved(c) {
      PercentAllShape(Utf8(c));
      assert EncodeURIComponent([c]) == PercentAll(Utf8(c));
    }
  }

  /** `%XY` escapes: every third character is `%`, the others upper-case hexadecimal digits. */
  lemma {:induction false} PercentAllShape(bs: seq<Byte>)
    ensures forall i :: 0 <= i < |PercentAll(bs)| ==>
      (i % 3 == 0 ==> PercentAll(bs)[i] == '%') &&
      (i % 3 != 0 ==> PercentAll(bs)[i] in "0123456789ABCDEF")
  {
    if |bs| > 0 {
      PercentAllShape(bs[1..]);
      var r := PercentAll(bs);
      var t := PercentAll(bs[1..]);
      assert r == Percent(bs[0]) + t;
      forall i | 3 <= i < |r|
        ensures r[i] == t[i - 3]
        ensures i % 3 == (i - 3) % 3
      {
      }
    }
  }

  /** Encoded text never contains a character that is neither unreserved nor `%`, such as the delimiters `&`, `=`, `?` and `#`. */
  lemma EncodedLacks(s: string, c: char)
    requires !Unreserved(c) && c != '%'
    ensures c !in EncodeURIComponent(s)
  {
    var r := EncodeURIComponent(s);
    assert forall i :: 0 <= i < |r| ==> r[i] != c;
  }

  // ---------------------------------------------------------------------------------------
  // decodeURIComponent

  /** The octet of a leading `%XY`, if `t` starts with one. */
  function ReadByte(t: string): (r: Option<Byte>)
    ensures r.Some? ==> |t| >= 3 && t[0] == '%'
  {
    if |t| >= 3 && t[0] == '%' then
      match (HexValue(t[1]), HexValue(t[2]))
      case (Some(hi), Some(lo)) => Some(hi * 16 + lo)
      case _ => None
    else None
  }

  /** The octets of `n` consecutive `%XY` escapes at the start of `t`. */
  function ReadBytes(t: string, n: nat): (r: Option<seq<Byte>>)
    ensures r.Some? ==> |r.value| == n && 3 * n <= |t|
    ensures r.Some? && n > 0 ==> ReadByte(t) == Some(r.value[0])
  {
    if n == 0 then Some([])
    else
      match ReadByte(t)
      case None => None
      case Some(b) =>
        match ReadBytes(t[3..], n - 1)
        case None => None
        case Some(rest) => Some([b] + rest)
  }

  /** How many octets a UTF-8 sequence starting with `b` has; 0 when `b` cannot start one. */
  function Utf8Length(b: Byte): nat {
    if b < 0x80 then 1
    else if b < 0xC0 then 0
    else if b < 0xE0 then 2
    else if b < 0xF0 then 3
    else if b < 0xF8 then 4
    else 0
  }

  predicate Continuation(b: Byte) {
    0x80 <= b < 0xC0
  }

  /**
   * The code point a complete UTF-8 sequence spells, or None when the sequence is not a valid
   * encoding: a bad continuation octet, an overlong form, a surrogate, or a value past U+10FFFF.
   */
  function Utf8Scalar(bs: seq<Byte>): Option<char>
    requires 1 <= |bs| <= 4 && Utf8Length(bs[0]) == |bs|
  {
    if |bs| == 1 then Some(bs[0] as char)
    else if !(forall i :: 1 <= i < |bs| ==> Continuation(bs[i])) then None
    else
      var b: seq<int> := bs;
      var cp :=
        if |b| == 2 then (b[0] - 0xC0) * 64 + (b[1] - 0x80)
        else if |b| == 3 then ((b[0] - 0xE0) * 64 + (b[1] - 0x80)) * 64 + (b[2] - 0x80)
        else (((b[0] - 0xF0) * 64 + (b[1] - 0x80)) * 64 + (b[2] - 0x80)) * 64 + (b[3] - 0x80);
      var least := if |bs| == 2 then 0x80 else if |bs| == 3 then 0x800 else 0x10000;
      if cp < least || cp > 0x10FFFF || 0xD800 <= cp < 0xE000 then None
      else Some(cp as char)
  }

  /**
   * `decodeURIComponent(t)`: characters other than `%` are copied; each `%XY` sequence must
   * spell a valid UTF-8 encoding and becomes its code point. None stands for the URIError the
   * function throws on a malformed escape.
   */
  function DecodeURIComponent(t: string): Option<string>
    decreases |t|
  {
    if |t| == 0 then Some("")
    else if t[0] != '%' then
      match DecodeURIComponent(t[1..])
      case None => None
      case Some(rest) => Some([t[0]] + rest)
    else
      match ReadByte(t)
      case None => None
      case Some(b) =>
        var n := Utf8Length(b);
        if n == 0 then None
        else
          match ReadBytes(t, n)
          case None => None
          case Some(bs) =>
            match Utf8Scalar(bs)
            case None => None
            case Some(c) =>
              match DecodeURIComponent(t[3 * n..])
              case None => None
              case Some(rest) => Some([c] + rest)
  }

  // ---------------------------------------------------------------------------------------
  // Round trip

  lemma HexRoundTrip(d: nat)
    requires d < 16
    ensures HexValue(HexDigit(d)) == Some(d)
  {
  }

  lemma ReadPercent(b: Byte, rest: string)
    ensures ReadByte(Percent(b) + rest) == Some(b)
  {
    HexRoundTrip(b / 16);
    HexRoundTrip(b % 16);
  }

  lemma {:induction false} ReadPercentAll(bs: seq<Byte>, rest: string)
    ensures ReadBytes(PercentAll(bs) + rest, |bs|) == Some(bs)
  {
    if |bs| > 0 {
      var t := PercentAll(bs) + rest;
      assert t == Percent(bs[0]) + (PercentAll(bs[1..]) + rest);
      ReadPercent(bs[0], PercentAll(bs[1..]) + rest);
      assert t[3..] == PercentAll(bs[1..]) + rest;
      ReadPercentAll(bs[1..], rest);
      assert [bs[0]] + bs[1..] == bs;
    }
  }

  /** Decoding the UTF-8 octets of a code point gives the code point back. */
  lemma Utf8RoundTrip(c: char)
    ensures 1 <= |Utf8(c)| <= 4
    ensures Utf8Length(Utf8(c)[0]) == |Utf8(c)|
    ensures Utf8Scalar(Utf8(c)) == Some(c)
  {
    var cp := c as int;
    var q := cp / 64;
    assert cp == q * 64 + cp % 64;
    if 0x800 <= cp {
      assert q == (q / 64) * 64 + q % 64;
      if 0x10000 <= cp {
        var q2 := q / 64;
        assert q2 == (q2 / 64) * 64 + q2 % 64;
        assert cp < 0x110000;
      }
    }
  }

  /** Decoding one encoded character followed by anything decodes the character, then the rest. */
  lemma DecodeEncodedChar(c: char, rest: string)
    ensures DecodeURIComponent(EncodeChar(c) + rest) ==
      match DecodeURIComponent(rest)
      case None => None
      case Some(r) => Some([c] + r)
  {
    var t := EncodeChar(c) + rest;
    if Unreserved(c) {
      assert t[0] == c && t[1..] == rest;
    } else {
      var bs := Utf8(c);
      Utf8RoundTrip(c);
      ReadPercentAll(bs, rest);
      assert t == PercentAll(bs) + rest;
      assert t[0] == '%';
      assert t[3 * |bs|..] == rest;
    }
  }

  /** `decodeURIComponent(encodeURIComponent(s)) === s` for every string. */
  lemma {:induction false} DecodeEncode(s: string)
    ensures DecodeURIComponent(EncodeURIComponent(s)) == Some(s)
  {
    if |s| > 0 {
      DecodeEncode(s[1..]);
      DecodeEncodedChar(s[0], EncodeURIComponent(s[1..]));
      assert [s[0]] + s[1..] == s;
    }
  }

  /** Distinct strings have distinct encodings. */
  lemma EncodeInjective(a: string, b: string)
    requires EncodeURIComponent(a) == EncodeURIComponent(b)
    ensures a == b
  {
    DecodeEncode(a);
    DecodeEncode(b);
  }
}

=== FILE: values.dfy ===
/**
 * JavaScript values as the helpers of js/util.js receive them, the conversions the
 * language applies to them implicitly (truthiness, `typeof`, string conversion), and
 * the two type tests `isPlainObject` and `isArray`.
 *
 * Functions, host objects (DOM nodes, `window`) and symbols are not values here, and
 * numbers are integers.
 */
module Values {
  import opened Results
  import opened Text
  import UriComponent

  datatype Value =
    | Undefined
    | Null
    | Bool(b: bool)
    | Num(n: int)
    | Str(s: string)
    | Arr(elems: seq<Value>)
    | Obj(fields: seq<(string, Value)>)

  /** The own property names of an object, in enumeration order. */
  function Names(fields: seq<(string, Value)>): seq<string> {
    seq(|fields|, i requires 0 <= i < |fields| => fields[i].0)
  }

  /** A JavaScript object has each own property name at most once. */
  predicate UniqueKeys(fields: seq<(string, Value)>) {
    forall i, j :: 0 <= i < j < |fields| ==> fields[i].0 != fields[j].0
  }

  /** Own property lookup `o[k]`; None stands for a missing property. */
  function Get(fields: seq<(string, Value)>, k: string): (r: Option<Value>)
    ensures r.Some? <==> k in Names(fields)
    ensures r.Some? ==> (k, r.value) in fields
  {
    if |fields| == 0 then None
    else if fields[0].0 == k then
      assert Names(fields)[0] == k;
      Some(fields[0].1)
    else
      assert Names(fields) == [fields[0].0] + Names(fields[1..]);
      Get(fields[1..], k)
  }

  /** In an object with unique names, reading a property yields the value stored under it. */
  lemma {:induction false} GetUnique(fields: seq<(string, Value)>, i: nat)
    requires UniqueKeys(fields)
    requires i < |fields|
    ensures Get(fields, fields[i].0) == Some(fields[i].1)
  {
    if i > 0 {
      assert fields[0].0 != fields[i].0;
      assert fields[1..][i - 1] == fields[i];
      GetUnique(fields[1..], i - 1);
    }
  }

  /** The property value a read produces, `undefined` when the property is missing. */
  function Prop(fields: seq<(string, Value)>, k: string): Value {
    Get(fields, k).GetOr(Undefined)
  }

  /** ToBoolean: what an `if` or `&&` makes of a value. */
  predicate Truthy(v: Value) {
    match v
    case Undefined => false
    case Null => false
    case Bool(b) => b
    case Num(n) => n != 0
    case Str(s) => s != ""
    case Arr(_) => true
    case Obj(_) => true
  }

  /** The `typeof` operator. */
  function TypeOf(v: Value): string {
    match v
    case Undefined => "undefined"
    case Null => "object"
    case Bool(_) => "boolean"
    case Num(_) => "number"
    case Str(_) => "string"
    case Arr(_) => "object"
    case Obj(_) => "object"
  }

  /** Decimal digits of a natural number, most significant first, without leading zeros. */
  function NatToString(n: nat): (r: string)
    ensures |r| >= 1
    ensures forall i :: 0 <= i < |r| ==> '0' <= r[i] <= '9'
    ensures n > 0 ==> r[0] != '0'
  {
    if n < 10 then [UriComponent.HexDigit(n)]
    else NatToString(n / 10) + [UriComponent.HexDigit(n % 10)]
  }

  /**
   * Number-to-String conversion of an integer. It is exact for integers of magnitude at most
   * 2^53, which are all JavaScript numbers. Above that, JavaScript prints the shortest numeral
   * that reads back as the same double, which can differ in its last digits.
   */
  function NumberToString(n: int): string {
    if n < 0 then "-" + NatToString(-n) else NatToString(n)
  }

  /**
   * Does converting `v` to a string reach an own `toString` property? That holds for an object
   * owning one, and for an array with such a value among its elements at any depth.
   */
  predicate OwnsToString(v: Value) {
    match v
    case Obj(f) => "toString" in Names(f)
    case Arr(es) => exists i :: 0 <= i < |es| && OwnsToString(es[i])
    case _ => false
  }

  /**
   * ToString, as `encodeURIComponent` and string concatenation apply it. An object is converted
   * through its `toString`; an own `toString` property shadows the inherited method and, not
   * being callable, makes the conversion throw. An array converts through `join(",")`, where
   * `undefined` and `null` elements become empty strings.
   */
  function ToStr(v: Value): (r: Result<string>)
    ensures r.Throw? <==> OwnsToString(v)
    ensures r.Throw? ==> r.error == TypeError
    ensures v.Undefined? ==> r == Ok("undefined")
    ensures v.Null? ==> r == Ok("null")
    ensures v.Bool? ==> r == Ok(if v.b then "true" else "false")
    ensures v.Str? ==> r == Ok(v.s)
    ensures v.Num? ==> r == Ok(NumberToString(v.n))
    ensures v.Obj? && r.Ok? ==> r.value == "[object Object]"
    decreases v, 1, 0
  {
    match v
    case Undefined => Ok("undefined")
    case Null => Ok("null")
    case Bool(b) => Ok(if b then "true" else "false")
    case Num(n) => Ok(NumberToString(n))
    case Str(s) => Ok(s)
    case Arr(es) => JoinElems(v, 0)
    case Obj(f) => if "toString" in Names(f) then Throw(TypeError) else Ok("[object Object]")
  }

  /** `Array.prototype.join` with separator "," over the elements from index `i` on. */
  function JoinElems(v: Value, i: nat): (r: Result<string>)
    requires v.Arr? && i <= |v.elems|
    ensures r.Throw? <==> exists j :: i <= j < |v.elems| && OwnsToString(v.elems[j])
    ensures r.Throw? ==> r.error == TypeError
    decreases v, 0, |v.elems| - i
  {
    if i == |v.elems| then Ok("")
    else
      var e := v.elems[i];
      assert e in v.elems;
      var first :- if e.Undefined? || e.Null? then Ok("") else ToStr(e);
      if i + 1 == |v.elems| then Ok(first)
      else
        var rest :- JoinElems(v, i + 1);
        Ok(first + "," + rest)
  }

  /** The text an array element contributes to its array's conversion: `undefined` and `null` give "". */
  function ElementText(e: Value): string {
    if e.Undefined? || e.Null? || ToStr(e).Throw? then "" else ToStr(e).value
  }

  /**
   * An array without an own `toString` anywhere inside converts to the texts of its elements
   * joined by ",", as `Array.prototype.join` describes.
   */
  lemma ArrayToStrJoinsElements(es: seq<Value>)
    requires !OwnsToString(Arr(es))
    ensures ToStr(Arr(es)) == Ok(Join(seq(|es|, k requires 0 <= k < |es| => ElementText(es[k])), ','))
  {
    var v := Arr(es);
    JoinElemsJoins(v, 0);
    assert seq(|es| - 0, k requires 0 <= k < |es| - 0 => ElementText(v.elems[0 + k])) ==
      seq(|es|, k requires 0 <= k < |es| => ElementText(es[k]));
  }

  lemma {:induction false} JoinElemsJoins(v: Value, i: nat)
    requires v.Arr? && i <= |v.elems|
    requires forall j :: i <= j < |v.elems| ==> !OwnsToString(v.elems[j])
    ensures JoinElems(v, i) ==
      Ok(Join(seq(|v.elems| - i, k requires 0 <= k < |v.elems| - i => ElementText(v.elems[i + k])), ','))
    decreases |v.elems| - i
  {
    var texts := seq(|v.elems| - i, k requires 0 <= k < |v.elems| - i => ElementText(v.elems[i + k]));
    if i < |v.elems| {
      var e := v.elems[i];
      assert e in v.elems;
      assert ToStr(e).Ok? <==> !OwnsToString(e);
      var first := ElementText(e);
      assert texts[0] == first;
      assert (if e.Undefined? || e.Null? then Ok("") else ToStr(e)) == Ok(first);
      if i + 1 < |v.elems| {
        JoinElemsJoins(v, i + 1);
        var rest := seq(|v.elems| - (i + 1), k requires 0 <= k < |v.elems| - (i + 1) => ElementText(v.elems[i + 1 + k]));
        assert texts[1..] == rest;
        assert JoinElems(v, i) == Ok(first + "," + Join(rest, ','));
      } else {
        assert JoinElems(v, i) == Ok(first);
      }
    }
  }

  /** Does `c` own a property named "isPrototypeOf" (`Object.prototype.hasOwnProperty.call`)? */
  predicate OwnsIsPrototypeOf(c: Value) {
    c.Obj? && "isPrototypeOf" in Names(c.fields)
  }

  /**
   * The rejection rules `isPlainObject` applies to an object: a truthy `nodeType` marks a DOM
   * node, and a truthy `construtor` property that does not own `isPrototypeOf` marks a
   * non-plain object. The comparison `obj.self === self` never holds, because the window is
   * not a value of this model.
   */
  predicate RejectedObject(fields: seq<(string, Value)>) {
    || Truthy(Prop(fields, "nodeType"))
    || (Truthy(Prop(fields, "construtor")) && !OwnsIsPrototypeOf(Prop(fields, "construtor")))
  }

  /**
   * `isPlainObject` exactly as written. `typeof null` is "object", so the next test reads a
   * property of null and throws. An array passes every test: the property meant to exclude it
   * is misspelled `construtor`, which no array has.
   */
  function IsPlainObjectAsWritten(v: Value): (r: Result<bool>)
    ensures r.Throw? <==> v.Null?
    ensures r.Throw? ==> r.error == TypeError
    ensures r == Ok(true) ==> v.Arr? || v.Obj?
  {
    match v
    case Null => Throw(TypeError)
    case Arr(_) => Ok(true)
    case Obj(f) => Ok(!RejectedObject(f))
    case _ => Ok(false)
  }

  /**
   * `isPlainObject` as its comment says it is meant to behave: arrays are excluded. It agrees
   * with the code on every value that is not an array.
   */
  function IsPlainObject(v: Value): (r: Result<bool>)
    ensures r.Throw? <==> v.Null?
    ensures r.Throw? ==> r.error == TypeError
    ensures r == Ok(true) <==> v.Obj? && !RejectedObject(v.fields)
    ensures !v.Arr? ==> r == IsPlainObjectAsWritten(v)
  {
    match v
    case Null => Throw(TypeError)
    case Obj(f) => Ok(!RejectedObject(f))
    case _ => Ok(false)
  }

  /** The misspelled constructor test lets every array through `isPlainObject`; the intended test rejects them. */
  lemma ArraysPassPlainObjectTest(es: seq<Value>)
    ensures IsPlainObjectAsWritten(Arr(es)) == Ok(true)
    ensures IsPlainObject(Arr(es)) == Ok(false)
  {
  }

  /** `Object.prototype.toString` applied to a value: its class tag. */
  function ClassTag(v: Value): string {
    match v
    case Undefined => "[object Undefined]"
    case Null => "[object Null]"
    case Bool(_) => "[object Boolean]"
    case Num(_) => "[object Number]"
    case Str(_) => "[object String]"
    case Arr(_) => "[object Array]"
    case Obj(_) => "[object Object]"
  }

  /** `isArray`: the `[object Array]` class test, which holds exactly for arrays. */
  function IsArray(v: Value): (r: bool)
    ensures r <==> v.Arr?
  {
    ClassTag(v) == "[object Array]"
  }
}
